=== FILE: README.md ===
# WorkReportAgent video scripts: a Dafny model

This project models the decision logic of five small scripts from WorkReportAgent's `etc/tmp` directory:

- **Generic Gemini summary script** (`vision_test/gemini_video_summary.py`). It loads a model list from `config.yml`: a primary model plus fallbacks. It uploads a video and polls until the file is no longer `PROCESSING`. It then asks each model in turn for a Japanese summary and stops at the first answer. If every model fails, it exits with 1.
- **Earlier Gemini test script** (`vlm_test/gemini.py`). It runs the same preparation, but the fallback is a hand-unrolled chain over three fixed models. When all three fail, it returns normally.
- **Timelapse converter** (`video_converter/convert_timelapse.py`). It reads each input video's frame rate and bit rate from `ffprobe`. It then runs `ffmpeg` to speed the video up by `fps / 2` and re-encode it as H.264 at CRF 28 with preset `veryslow`. Each output keeps the input's base name.
- **Compression experiment** (`video_converter/test/experiment_compression.py`). It runs three codec/CRF/preset trials. Each output is named `{stem}_{codec}_crf{crf}{ext}`, and the H.265 trials get `-tag:v hvc1` appended.
- **Frame-analysis job** (`modal_test/main.py`). It keeps every 30th decoded frame and asks a local vision model about each kept frame. It produces one line per frame, `"Frame {i+1}: ..."`, or two when the model's content is `None`, and joins the lines with blank lines.

Every remote or subprocess call is an oracle given as a parameter:

- `respond(i)` is the outcome of the `i`-th `generate_content` call: `Ok(text)` or `Err(message)`.
- The `files.get` answers are a finite sequence. A run whose answers run out while the file is still `PROCESSING` ends as `Waiting` rather than looping forever.
- The decoded `ffprobe` record is a parameter, one per call: per input file in the timelapse converter, per trial in the experiment (which probes the same input again for each trial). Whether `ffmpeg` succeeds, and the output's size, are parameters too.
- The `glob` results, the vision model's replies, and whether the model download and the input files exist are also parameters.
- Frame rates are exact rationals (`Numbers.Rat`). The integer `0` that the timelapse converter uses for a missing frame rate is kept apart from the float it computes otherwise (`Numbers.PyNum`).
- Python's rendering of a float into the filter string is a parameter, `renderFloat`.

Modules, one per script plus shared helpers:

| module | what it holds |
|---|---|
| `Common` | `Option`, the oracle `Reply`, Python truthiness of optional strings |
| `Decimal` | `str()` of integers, and `int()` on sign-and-digits text |
| `Text` | `str.split` on one character, `str.join` |
| `Paths` | `posixpath.basename`, two-argument `join`, `splitext` |
| `Numbers` | int-or-float numbers, `num / den`, `fps / 2.0`, f-string rendering |
| `Probe` | the ffprobe record and both scripts' `get_video_info` |
| `Ffmpeg` | an independent left-to-right reader of an ffmpeg argument vector; it is the partner of both command builders |
| `Timelapse` | the timelapse converter's `convert_video` and `main` |
| `Experiment` | `convert_experiment` and `main` of the experiment |
| `Polling` | the upload-state polling loop |
| `Fallback` | `generate_summary_with_fallback` |
| `Session` | key check, client creation, existence check, upload and polling, with their exit codes |
| `VideoSummary` | `load_config`, the model list and `main` of the generic script |
| `VlmTest` | the unrolled chain and `main` of the test script |
| `FrameAnalysis` | frame sampling, per-frame lines, the final join, and the local entry point |

How the exit codes are modelled. `sys.exit(1)` raises `SystemExit`, which `except Exception` does not catch. So the exits inside the Gemini scripts' `try` blocks keep code 1. An exception from upload or `files.get` is caught and printed, and the script then ends normally with code 0.

ffmpeg's handling of the experiment's H.265 tag. The experiment appends `-tag:v hvc1` after the output file. ffmpeg applies options to the output file that follows them, so the reader reports these two arguments as trailing ones rather than as settings of the output (`Experiment.CommandReadsBack`). Whether a given ffmpeg build still honours them is outside the model.

## Model

| member | source | states |
|---|---|---|
| Decimal.NatToString | WorkReportAgent/etc/tmp/modal_test/main.py:137 | the decimal text of a frame number is non-empty, all digits, has no leading zero, and denotes that number |
| Decimal.IntToString | WorkReportAgent/etc/tmp/video_converter/test/experiment_compression.py:37 | `str(crf)` is non-empty, has no slash or dot, and starts with `-` exactly for negative numbers |
| Decimal.ParseInt | WorkReportAgent/etc/tmp/video_converter/convert_timelapse.py:37 | within the forms modelled, `int()` accepts a digit string, or a `+`/`-` sign followed by one; the value is the digits' value, negated after `-`; any other text is the `ValueError` case |
| Decimal.ParseIntToString | WorkReportAgent/etc/tmp/video_converter/convert_timelapse.py:29 | `int(str(i)) == i` for every integer the model renders (Python's digit limit is not modelled) |
| Decimal.IntToStringOfParse | WorkReportAgent/etc/tmp/video_converter/convert_timelapse.py:29 | parsing canonical integer text and printing it again gives back the same text |
| Decimal.NatToStringOfDigits | WorkReportAgent/etc/tmp/video_converter/convert_timelapse.py:37 | digit text without a leading zero is the decimal rendering of the value it denotes |
| Text.Split | WorkReportAgent/etc/tmp/video_converter/convert_timelapse.py:29 | `split('/')` gives at least one part, no part holds the separator, and there is exactly one part iff the text has no separator |
| Text.JoinSplit | WorkReportAgent/etc/tmp/video_converter/convert_timelapse.py:29 | joining the split parts with the separator gives back the text |
| Text.SplitPair | WorkReportAgent/etc/tmp/video_converter/convert_timelapse.py:29 | two separator-free texts joined by one separator split into exactly those two |
| Text.Join | WorkReportAgent/etc/tmp/modal_test/main.py:143 | joining no parts gives the empty text; joining one part gives that part |
| Text.JoinAppend | WorkReportAgent/etc/tmp/modal_test/main.py:143 | appending a part to the list appends the separator and that part to the joined text |
| Paths.Basename | WorkReportAgent/etc/tmp/video_converter/convert_timelapse.py:104 | the base name is the longest slash-free suffix of the path |
| Paths.PathJoin | WorkReportAgent/etc/tmp/video_converter/convert_timelapse.py:105 | an absolute name replaces the directory; otherwise the directory is a prefix and the name a suffix of the result |
| Paths.JoinSeparator | WorkReportAgent/etc/tmp/video_converter/convert_timelapse.py:105 | before a relative name, `join` keeps the directory as it is when it is empty or ends with a slash, and adds exactly one slash otherwise |
| Paths.JoinIsDirectlyIn | WorkReportAgent/etc/tmp/video_converter/convert_timelapse.py:104-105 | a slash-free name joined to a directory is an entry directly in that directory: what precedes its base name is the directory, or the directory plus one slash |
| Paths.BasenameOfJoin | WorkReportAgent/etc/tmp/video_converter/convert_timelapse.py:104-105 | a slash-free name joined to any directory is the base name of the result |
| Paths.SplitExt | WorkReportAgent/etc/tmp/video_converter/test/experiment_compression.py:23 | stem and extension concatenate to the name; a non-empty extension is a dot with no further dot or slash after it, and some non-dot character precedes it within the last path component; an empty extension means every dot of the last component has only dots before it in that component |
| Paths.KeepsExtension | WorkReportAgent/etc/tmp/video_converter/test/experiment_compression.py:22-24 | inserting a dot-free, slash-free tag between stem and extension leaves `splitext` splitting at the same extension, with the tag added to the stem |
| Numbers.Divide | WorkReportAgent/etc/tmp/video_converter/convert_timelapse.py:30 | `num / den` gives a quotient exactly when `den != 0`, and the quotient times `den` is `num` (exact, so float overflow and underflow are not modelled) |
| Numbers.Half | WorkReportAgent/etc/tmp/video_converter/convert_timelapse.py:50 | the speed factor is a float whose double is the frame rate |
| Numbers.Render | WorkReportAgent/etc/tmp/video_converter/convert_timelapse.py:68 | an integer frame rate is rendered as text that parses back to it |
| Probe.ParseFrameRate | WorkReportAgent/etc/tmp/video_converter/convert_timelapse.py:29-30 | a parsed frame rate never has a zero denominator |
| Probe.ParseFrameRateOfText | WorkReportAgent/etc/tmp/video_converter/convert_timelapse.py:29-30 | `"<num>/<den>"` with a non-zero denominator parses to exactly `num/den` |
| Probe.ParsedFrameRateShape | WorkReportAgent/etc/tmp/video_converter/convert_timelapse.py:29-30 | text that parses has one slash, the numerator's integer text before it and the denominator's after it |
| Probe.TimelapseVideoInfo | WorkReportAgent/etc/tmp/video_converter/convert_timelapse.py:17-42 | information is reported only for a successful probe with a first stream, and its frame rate is well formed |
| Probe.ExperimentFps | WorkReportAgent/etc/tmp/video_converter/test/experiment_compression.py:10-19 | a frame rate is reported exactly when the probe succeeded, has a first stream, and that stream's `r_frame_rate` is present, non-empty and parses; it is then the float `num/den` |
| Probe.ExperimentFpsOfText | WorkReportAgent/etc/tmp/video_converter/test/experiment_compression.py:13-16 | a stream frame rate `"<num>/<den>"` is read as `num/den` |
| Probe.ZeroFrameRateIsFalsy | WorkReportAgent/etc/tmp/video_converter/test/experiment_compression.py:14-16 | a `"0/<den>"` frame rate is read as a float that Python treats as false |
| Probe.NoStreamNoInfo | WorkReportAgent/etc/tmp/video_converter/convert_timelapse.py:21-23 | a failed probe, a missing `streams` key or an empty stream list gives no information in either script |
| Probe.TimelapseFrameRate | WorkReportAgent/etc/tmp/video_converter/convert_timelapse.py:26-30 | a present frame rate is read as `num/den`; an absent or empty one gives the integer 0 |
| Probe.TimelapseFrameRateValue | WorkReportAgent/etc/tmp/video_converter/convert_timelapse.py:26-30 | a `"<num>/<den>"` frame rate has the value `num / den` |
| Probe.TimelapseBitRate | WorkReportAgent/etc/tmp/video_converter/convert_timelapse.py:33-37 | the bit rate comes from the stream when non-empty, else from the format entry when present, else it is 0 |
| Probe.TimelapseErrors | WorkReportAgent/etc/tmp/video_converter/convert_timelapse.py:28-42 | with a first stream, there is no information iff the frame rate or the chosen bit rate fails to parse |
| Probe.FrameRatesAgree | WorkReportAgent/etc/tmp/video_converter/test/experiment_compression.py:13-19 | both scripts read the same float frame rate; where the converter reports integer 0, the experiment reports none |
| Ffmpeg.ReadConverterCommand | WorkReportAgent/etc/tmp/video_converter/convert_timelapse.py:64-74 | the converters' argument shape reads back as overwrite, input, filter, codec, CRF, preset, no audio, then the output and what follows it |
| Timelapse.Command | WorkReportAgent/etc/tmp/video_converter/convert_timelapse.py:64-74 | the command has 14 arguments, starts with `ffmpeg` and ends with the output path |
| Timelapse.CommandReadsBack | WorkReportAgent/etc/tmp/video_converter/convert_timelapse.py:64-74 | ffmpeg reads the command as: overwrite, the input, the `setpts=PTS/{fps/2},fps={fps}` filter, `libx264`, CRF `28`, preset `veryslow`, no audio, the output last |
| Timelapse.ConvertVideo | WorkReportAgent/etc/tmp/video_converter/convert_timelapse.py:44-84 | ffmpeg is skipped iff the probe gives no information; otherwise the command reads the input and writes the output, built from the probed frame rate; the call raises iff ffmpeg cannot be started, and returns true iff ffmpeg exits successfully |
| Timelapse.ZeroFrameRateStillRuns | WorkReportAgent/etc/tmp/video_converter/convert_timelapse.py:46-68 | a frame rate of 0 does not skip the conversion; the filter divides by the float `0/2` and keeps the integer frame rate `fps=0` |
| Timelapse.ConvertOneShape | WorkReportAgent/etc/tmp/video_converter/convert_timelapse.py:103-106 | each job writes directly into the output directory under its input's base name, with ffmpeg reading that input and writing that output; it is skipped iff the probe gives nothing, raises iff ffmpeg cannot be started, and succeeds iff ffmpeg exits successfully |
| Timelapse.CollectInputs | WorkReportAgent/etc/tmp/video_converter/convert_timelapse.py:94-97 | the inputs are the `*.mp4` matches, then the `*.mov`, `*.avi` and `*.mkv` matches, each pattern searched in the input directory |
| Timelapse.PlannedJobs | WorkReportAgent/etc/tmp/video_converter/convert_timelapse.py:103-106 | each planned job converts its own input, directly into the output directory under the input's base name; it is skipped iff that input's probe gives nothing, and raises iff ffmpeg cannot be started for it |
| Common.UntilFirst | WorkReportAgent/etc/tmp/video_converter/convert_timelapse.py:78-84 | the steps carried out form a prefix of the planned ones; only the last may have stopped the script, a shorter run ends with one that did, and a run where none stops carries out every step |
| Timelapse.ConvertAll | WorkReportAgent/etc/tmp/video_converter/convert_timelapse.py:103-106 | the conversions carried out are the planned ones in input order, cut short only just after an ffmpeg that cannot be started |
| Timelapse.AllInputsWhenFfmpegStarts | WorkReportAgent/etc/tmp/video_converter/convert_timelapse.py:103-106 | when ffmpeg can always be started, every input is converted |
| Timelapse.Main | WorkReportAgent/etc/tmp/video_converter/convert_timelapse.py:86-106 | the conversions follow the files found under `input`, in order, and are written under `output`; no file found means no conversion; the run ends early only at an ffmpeg that cannot be started |
| Timelapse.OutputKeepsBaseName | WorkReportAgent/etc/tmp/video_converter/convert_timelapse.py:104-105 | the output path lies directly in the output directory and has its input's base name |
| Experiment.OutputNameShape | WorkReportAgent/etc/tmp/video_converter/test/experiment_compression.py:22-24 | the output lies directly in the output directory; its extension is the input's, and its stem is the input's stem plus `_{codec}_crf{crf}` |
| Experiment.Command | WorkReportAgent/etc/tmp/video_converter/test/experiment_compression.py:33-44 | codec, `str(crf)` and preset sit in fixed places; `-tag:v hvc1` follows the output iff the codec is `libx265`, otherwise the list has 14 arguments |
| Experiment.CommandReadsBack | WorkReportAgent/etc/tmp/video_converter/test/experiment_compression.py:33-44 | ffmpeg reads the given codec, CRF and preset; the `hvc1` tag is found after the output, never among its settings |
| Experiment.ConvertExperiment | WorkReportAgent/etc/tmp/video_converter/test/experiment_compression.py:21-51 | a trial is skipped iff the frame rate is missing or zero; otherwise it runs the command for the probed frame rate, the derived output path, the codec, the CRF and the given preset; it crashes iff ffmpeg fails, and otherwise returns the size of the file ffmpeg wrote |
| Experiment.DefaultPresetIsMedium | WorkReportAgent/etc/tmp/video_converter/test/experiment_compression.py:21 | without an explicit preset, a trial that runs ffmpeg passes preset `medium` |
| Experiment.Main | WorkReportAgent/etc/tmp/video_converter/test/experiment_compression.py:53-70 | the three trials run in order with their own settings, each on its own probe of the input; no trial follows a crash, and the run stops early only at a crash |
| Experiment.NoFrameRateSkipsAll | WorkReportAgent/etc/tmp/video_converter/test/experiment_compression.py:26-27 | when every trial's probe gives a missing or zero frame rate, all three trials are skipped |
| Polling.AwaitReady | WorkReportAgent/etc/tmp/vision_test/gemini_video_summary.py:85-88 | one fetch per `PROCESSING` state seen, each by the name of the file last seen; the loop stops at the first other state, at a fetch that raised, or when the answers run out |
| Polling.ReadyAtOnce | WorkReportAgent/etc/tmp/vision_test/gemini_video_summary.py:85 | a file that is not `PROCESSING` after upload is used with no fetch |
| Polling.SameNameEachTime | WorkReportAgent/etc/tmp/vlm_test/gemini.py:37-40 | while the service keeps the name, every fetch asks for the uploaded name |
| Polling.PollCount | WorkReportAgent/etc/tmp/vision_test/gemini_video_summary.py:85-88 | after `n` states that are `PROCESSING` and then one that is not, the loop fetched exactly `n` times and holds that final file |
| Fallback.TryFrom | WorkReportAgent/etc/tmp/vision_test/gemini_video_summary.py:22-36 | models are called in list order from the given position; a summary is the reply of the last call, every earlier call failed, and no summary means every remaining model was called and failed |
| Fallback.GenerateWithFallback | WorkReportAgent/etc/tmp/vision_test/gemini_video_summary.py:16-38 | models are called in list order with the summary prompt, each at most once; the result is true iff some model answers, in which case the last call answered and all earlier ones failed |
| Fallback.ShortCircuit | WorkReportAgent/etc/tmp/vision_test/gemini_video_summary.py:22-32 | when model `k` is the first to answer, exactly `k + 1` calls are made and `k`'s text is the summary |
| Fallback.Exhaustion | WorkReportAgent/etc/tmp/vision_test/gemini_video_summary.py:22-38 | when every model fails, each is called exactly once, in order, and the result is false |
| Fallback.EmptyList | WorkReportAgent/etc/tmp/vision_test/gemini_video_summary.py:22-38 | an empty model list makes no call and returns false |
| Fallback.LaterRepliesIrrelevant | WorkReportAgent/etc/tmp/vision_test/gemini_video_summary.py:22-32 | replies to calls that are never made do not affect the outcome |
| Session.Prepare | WorkReportAgent/etc/tmp/vision_test/gemini_video_summary.py:59-92 | a missing key exits 1 before client creation; a client failure or a missing video exits 1 before upload; an upload that raised ends with 0; no stopped run generates; a run that proceeds holds a file that is neither `PROCESSING` nor `FAILED` |
| Session.FailedStateStops | WorkReportAgent/etc/tmp/vision_test/gemini_video_summary.py:90-92 | a final `FAILED` state exits with 1 before any generation |
| Session.OtherStateProceeds | WorkReportAgent/etc/tmp/vision_test/gemini_video_summary.py:90-97 | any other final state proceeds to generation with the file last fetched |
| VideoSummary.LoadConfig | WorkReportAgent/etc/tmp/vision_test/gemini_video_summary.py:8-14 | with no file, the built-in primary and fallbacks are used; otherwise the file's contents are |
| VideoSummary.ModelsToTry | WorkReportAgent/etc/tmp/vision_test/gemini_video_summary.py:53-57 | the primary model comes first, then the fallbacks in configured order; the length is 1 plus the number of fallbacks, and a missing key gives no fallbacks |
| VideoSummary.DefaultModels | WorkReportAgent/etc/tmp/vision_test/gemini_video_summary.py:11 | with no configuration file the models are 3.0 Pro, 2.5 Pro, 1.5 Pro |
| VideoSummary.GenerateStep | WorkReportAgent/etc/tmp/vision_test/gemini_video_summary.py:96-99 | the run keeps the preparation's calls, then asks the listed models in list order, each at most once, all models when none answers; a summary is produced iff some model answers, it is the last asked model's answer, and the script exits 0 iff there is one |
| VideoSummary.Main | WorkReportAgent/etc/tmp/vision_test/gemini_video_summary.py:40-102 | a stopped preparation is the whole run; otherwise the generation calls ask `model_name` and then the configured fallbacks, in order, and a summary is produced iff one of them answers |
| VideoSummary.ExhaustionExitsOne | WorkReportAgent/etc/tmp/vision_test/gemini_video_summary.py:97-99 | when every model fails, each is asked once and the script exits with 1 without a summary |
| VideoSummary.FirstAnswerWins | WorkReportAgent/etc/tmp/vision_test/gemini_video_summary.py:96-99 | the first model to answer gives the summary, no later model is asked, and the script exits 0 |
| VlmTest.UnrolledChain | WorkReportAgent/etc/tmp/vlm_test/gemini.py:52-94 | between one and three calls are made, all with the same video and the same prompt |
| VlmTest.UnrolledIsGeneric | WorkReportAgent/etc/tmp/vlm_test/gemini.py:52-94 | the unrolled chain makes the same calls and gets the same summary as the generic invoker over 3.0 Pro, 2.5 Pro, 1.5 Pro |
| VlmTest.Main | WorkReportAgent/etc/tmp/vlm_test/gemini.py:7-97 | a non-zero exit happens only during preparation, never because generation failed |
| VlmTest.SameAsGenericExceptExit | WorkReportAgent/etc/tmp/vlm_test/gemini.py:93-94 | with no configuration file, both scripts make the same calls and print the same summary; their exits differ iff the file is ready and all three models fail, in which case the generic script exits 1 and this one 0 |
| FrameAnalysis.SampleFrames | WorkReportAgent/etc/tmp/modal_test/main.py:84-100 | frame `c` is kept iff `c % 30 == 0`; kept frames stay in reading order, and `n` frames keep `ceil(n / 30)` |
| FrameAnalysis.FrameLines | WorkReportAgent/etc/tmp/modal_test/main.py:130-141 | a frame adds one line labelled `Frame {i+1}: `, holding the content or `Error - {message}`; a `None` content adds a second, error line, because the progress print after the append raises |
| FrameAnalysis.OneLinePerFrame | WorkReportAgent/etc/tmp/modal_test/main.py:111-141 | when no content is `None`, there is exactly one line per frame, in frame order |
| FrameAnalysis.NoneAddsLine | WorkReportAgent/etc/tmp/modal_test/main.py:136-141 | a `None` content among the frames gives more lines than frames |
| FrameAnalysis.LineCount | WorkReportAgent/etc/tmp/modal_test/main.py:111-141 | there is one line per frame exactly when no content is `None` |
| FrameAnalysis.DescribeFrames | WorkReportAgent/etc/tmp/modal_test/main.py:108-141 | the loop appends each kept frame's lines in order, and an error does not stop it; between one and two lines per frame, and exactly the per-frame result lines when no content is `None` |
| FrameAnalysis.AnalyzeVideo | WorkReportAgent/etc/tmp/modal_test/main.py:61-143 | a failed download returns `Model download failed` with no inference; otherwise there is one inference per kept frame, and the frames' lines are joined with blank lines, empty when no frame is kept |
| FrameAnalysis.LocalEntrypoint | WorkReportAgent/etc/tmp/modal_test/main.py:146-166 | a missing input file ends the run before any remote call; a failed download gives its fixed message; otherwise the result is the lines of the `ceil(n / 30)` kept frames joined with blank lines |

## Left out

- Printing, logging and `time.sleep(2)`. Their output is not modelled. The one print that changes behaviour is the frame-analysis progress print, which slices the content; its `TypeError` on a `None` content is modelled (`FrameAnalysis.FrameLines`).
- Real-time waiting. The `files.get` answers are a finite sequence, and running out of them while the file is still `PROCESSING` is reported as `Waiting` rather than as a non-terminating loop.
- Running `ffprobe` and `ffmpeg`, and JSON decoding. The decoded probe record and ffmpeg's outcome are inputs. For the timelapse converter that outcome distinguishes an ffmpeg that cannot be started, whose `OSError` escapes `convert_video` and ends `main`. For the experiment every failure ends the script, so one outcome covers both. Probe values other than strings (a number where text is expected) are not modelled.
- `os.path.getsize`. The size of the written output is part of ffmpeg's oracle outcome.
- `os.makedirs` of the output directories.
- Numbers.Render: the float case is a caller-supplied rendering function, because Python's shortest round-trip float formatting and IEEE rounding are not modelled. Frame rates and speed factors are exact rationals.
- Decimal.ParseInt: accepts only an optional sign followed by ASCII digits. Surrounding whitespace, `_` separators and non-ASCII digits, which Python's `int()` also accepts, are rejected.
- Decimal.ParseInt: has no length limit. Python's `int()` raises `ValueError` for text of more than 4300 digits, and `str()` raises for an integer that large; the model parses and renders integers of any size.
- Probe.ParseFrameRate: the quotient `num / den` is exact. Python's float division raises `OverflowError` when the quotient exceeds the float range (both `get_video_info` functions then return `None`), and a quotient below the smallest float rounds to `0.0`, which the experiment treats as false and skips. The model returns the exact non-zero rational in both cases.
- YAML parsing, `argv` handling and `os.path.abspath`. The configuration file's relevant keys and the video path are inputs. A `config.yml` that is empty or not a mapping would make `config.get` raise; this is not modelled.
- Fallback models from the configuration are assumed to be a list of strings.
- The Gemini service's internals: upload, `files.get` and `generate_content` are oracles. Polling.SameNameEachTime assumes, as a precondition, that the service keeps the file's name.
- A message content that is neither text nor `None` is not modelled.
- A Gemini `response.text` of `None` is printed without error; the model treats the reply text as whatever was printed.
- Frame decoding, JPEG encoding, base64, the prompt format sent to the vision model, and writing the temporary video file. Frames are an opaque sequence, and each reply is an oracle indexed by frame.
- The Modal application, image, volume and GPU setup, and llama-cpp model loading. Only the download's success is an input.
- Timestamp parsing, per-section report writing and screenshot extraction. These belong to the report pipeline, which is not part of this model.

=== FILE: common.dfy ===
/** Shared datatypes for the scripts' optional values and remote-call outcomes. */
module Common {

  /** A value that may be missing: a dictionary key that is absent, a `None`. */
  datatype Option<+T> = None | Some(value: T)

  /** The outcome of one call into a collaborator that either answers with text
      or raises an exception (whose message is kept). */
  datatype Reply = Ok(text: string) | Err(message: string)

  /** Python truthiness of an optional string: present and non-empty. */
  predicate Present(s: Option<string>)
  {
    s.Some? && s.value != ""
  }

  /** A script whose steps may raise: the steps it gets through, up to and
      including the first one that `stops` it; all of them when none does. */
  function UntilFirst<T>(steps: seq<T>, stops: T -> bool): (run: seq<T>)
    ensures run <= steps
    ensures forall i :: 0 <= i < |run| - 1 ==> !stops(run[i])
    ensures |run| < |steps| ==> |run| > 0 && stops(run[|run| - 1])
    ensures (forall i :: 0 <= i < |steps| ==> !stops(steps[i])) ==> run == steps
  {
    if steps == [] then []
    else if stops(steps[0]) then [steps[0]]
    else [steps[0]] + UntilFirst(steps[1..], stops)
  }
}

=== FILE: decimal.dfy ===
/** Decimal rendering and parsing of integers, as Python's `str(n)` and
    `int(s)` do it for plain ASCII decimal text. */
module Decimal {
  import opened Common

  predicate IsDigit(c: char)
  {
    '0' <= c <= '9'
  }

  predicate AllDigits(s: string)
  {
    forall i :: 0 <= i < |s| ==> IsDigit(s[i])
  }

  function DigitValue(c: char): (d: nat)
    requires IsDigit(c)
    ensures d < 10
  {
    c as int - '0' as int
  }

  function DigitChar(d: nat): (c: char)
    requires d < 10
    ensures IsDigit(c) && DigitValue(c) == d
  {
    ('0' as int + d) as char
  }

  /** The value of a string of decimal digits, most significant first. */
  function DigitsValue(s: string): (n: nat)
    requires AllDigits(s)
  {
    if s == [] then 0 else DigitsValue(s[..|s| - 1]) * 10 + DigitValue(s[|s| - 1])
  }

  /** `str(n)` for a non-negative integer: no sign, no leading zero. */
  function NatToString(n: nat): (s: string)
    ensures |s| > 0 && AllDigits(s)
    ensures DigitsValue(s) == n
    ensures s[0] == '0' ==> n == 0 && |s| == 1
  {
    if n < 10 then [DigitChar(n)]
    else
      var prefix := NatToString(n / 10);
      var s := prefix + [DigitChar(n % 10)];
      assert s[..|s| - 1] == prefix;
      s
  }

  /** `str(i)` for any integer: a minus sign precedes the digits of a negative value. */
  function IntToString(i: int): (s: string)
    ensures |s| > 0
    ensures '/' !in s && '.' !in s
    ensures (s[0] == '-') <==> i < 0
  {
    if i < 0 then "-" + NatToString(-i) else NatToString(i)
  }

  /** `int(s)` restricted to an optional `+`/`-` sign followed by at least one
      ASCII digit; every other text is the `ValueError` case, `None`. */
  function ParseInt(s: string): (r: Option<int>)
    ensures r.Some? ==> |s| > 0 && AllDigits(s[1..]) && (IsDigit(s[0]) || (|s| > 1 && (s[0] == '-' || s[0] == '+')))
    ensures |s| > 0 && AllDigits(s) ==> r == Some(DigitsValue(s))
    ensures |s| > 1 && s[0] == '+' && AllDigits(s[1..]) ==> r == Some(DigitsValue(s[1..]))
    ensures |s| > 1 && s[0] == '-' && AllDigits(s[1..]) ==> r == Some(-(DigitsValue(s[1..]) as int))
  {
    if |s| > 0 && (s[0] == '-' || s[0] == '+') then
      var body := s[1..];
      if |body| > 0 && AllDigits(body) then
        var magnitude: int := DigitsValue(body);
        Some(if s[0] == '-' then -magnitude else magnitude)
      else None
    else if |s| > 0 && AllDigits(s) then Some(DigitsValue(s))
    else None
  }

  /** Rendering then parsing gives the integer back: `int(str(i)) == i`. */
  lemma ParseIntToString(i: int)
    ensures ParseInt(IntToString(i)) == Some(i)
  {
    if i < 0 {
      var s := IntToString(i);
      assert s[1..] == NatToString(-i);
    }
  }

  /** Parsing then rendering gives canonical text back: a string `str()` could
      have produced is reproduced exactly by `str(int(s))`. */
  lemma IntToStringOfParse(s: string)
    requires ParseInt(s).Some?
    requires s[0] != '+'
    requires s[0] == '-' ==> |s| > 1 && s[1] != '0'
    requires s[0] != '-' ==> s[0] != '0' || |s| == 1
    ensures IntToString(ParseInt(s).value) == s
  {
    if s[0] == '-' {
      NatToStringOfDigits(s[1..]);
      assert "-" + s[1..] == s;
    } else {
      NatToStringOfDigits(s);
    }
  }

  /** A digit string without a leading zero is `str` of its value. */
  lemma {:induction false} NatToStringOfDigits(s: string)
    requires |s| > 0 && AllDigits(s)
    requires s[0] != '0' || |s| == 1
    ensures NatToString(DigitsValue(s)) == s
  {
    var n := DigitsValue(s);
    var init := s[..|s| - 1];
    var last := s[|s| - 1];
    if |s| == 1 {
      assert init == [];
      assert DigitsValue(init) == 0;
      assert [DigitChar(n)] == s;
    } else {
      assert init[0] == s[0];
      NatToStringOfDigits(init);
      LeadingDigitPositive(init);
      assert n / 10 == DigitsValue(init) && n % 10 == DigitValue(last);
      assert DigitChar(n % 10) == last;
      assert init + [last] == s;
    }
  }

  lemma {:induction false} LeadingDigitPositive(s: string)
    requires |s| > 0 && AllDigits(s) && s[0] != '0'
    ensures DigitsValue(s) > 0
  {
    if |s| > 1 {
      var init := s[..|s| - 1];
      assert init[0] == s[0];
      LeadingDigitPositive(init);
    } else {
      assert s[..|s| - 1] == [];
    }
  }
}

=== FILE: experiment.dfy ===
/** `convert_experiment` and `main` of the compression experiment: one ffmpeg
    call per codec/CRF/preset trial, naming each output after its settings. */
module Experiment {
  import opened Common
  import opened Numbers
  import Decimal
  import Probe
  import Paths
  import Ffmpeg

  const DefaultPreset := "medium"
  const Hevc := "libx265"

  /** `f"{name}_{codec}_crf{crf}{ext}"` for `name, ext = splitext(basename(input))`. */
  function OutputName(input: string, codec: string, crf: int): (name: string)
  {
    var (stem, ext) := Paths.SplitExt(Paths.Basename(input));
    stem + Tag(codec, crf) + ext
  }

  /** What the experiment inserts between stem and extension. */
  function Tag(codec: string, crf: int): (tag: string)
  {
    "_" + codec + "_crf" + Decimal.IntToString(crf)
  }

  function OutputPath(input: string, outputDir: string, codec: string, crf: int): (path: string)
  {
    Paths.PathJoin(outputDir, OutputName(input, codec, crf))
  }

  /** The output file sits directly in the output directory and keeps the input's extension;
      its stem is the input's stem followed by the codec and CRF tag. */
  lemma OutputNameShape(input: string, outputDir: string, codec: string, crf: int)
    requires '/' !in codec && '.' !in codec
    ensures var (stem, ext) := Paths.SplitExt(Paths.Basename(input));
      && Paths.Basename(OutputPath(input, outputDir, codec, crf)) == OutputName(input, codec, crf)
      && Paths.DirectlyIn(OutputPath(input, outputDir, codec, crf), outputDir)
      && Paths.SplitExt(OutputName(input, codec, crf)) == (stem + Tag(codec, crf), ext)
  {
    var name := Paths.Basename(input);
    var (stem, ext) := Paths.SplitExt(name);
    var tag := Tag(codec, crf);
    TagShape(codec, crf);
    NoSlashInParts(name, stem, ext);
    var out := stem + tag + ext;
    assert out == OutputName(input, codec, crf);
    assert '/' !in out;
    Paths.BasenameOfJoin(outputDir, out);
    Paths.JoinIsDirectlyIn(outputDir, out);
    Paths.KeepsExtension(name, tag);
  }

  lemma TagShape(codec: string, crf: int)
    requires '/' !in codec && '.' !in codec
    ensures |Tag(codec, crf)| > 0 && '/' !in Tag(codec, crf) && '.' !in Tag(codec, crf)
  {
    var digits := Decimal.IntToString(crf);
    assert Tag(codec, crf) == "_" + codec + "_crf" + digits;
  }

  lemma NoSlashInParts(name: string, stem: string, ext: string)
    requires '/' !in name && stem + ext == name
    ensures '/' !in stem && '/' !in ext
  {
    assert forall j :: 0 <= j < |stem| ==> stem[j] == name[j];
    assert forall j :: 0 <= j < |ext| ==> ext[j] == name[|stem| + j];
  }

  /** The argument vector: codec, `str(crf)` and preset in fixed places, and for
      H.265 the `hvc1` tag appended after the output file. */
  function Command(input: string, output: string, fps: PyNum, codec: string, crf: int,
                   preset: string, renderFloat: Rat -> string): (cmd: seq<string>)
    requires WellFormed(fps)
    ensures |cmd| >= 14 && cmd[11] == preset
    ensures cmd[..14] == ["ffmpeg", "-y", "-i", input, "-filter:v", Ffmpeg.SpeedFilter(fps, renderFloat),
                          "-c:v", codec, "-crf", Decimal.IntToString(crf), "-preset", preset, "-an", output]
    ensures codec == Hevc ==> cmd[14..] == ["-tag:v", "hvc1"]
    ensures codec != Hevc ==> |cmd| == 14
  {
    var cmd := ["ffmpeg", "-y", "-i", input,
                "-filter:v", Ffmpeg.SpeedFilter(fps, renderFloat),
                "-c:v", codec,
                "-crf", Decimal.IntToString(crf),
                "-preset", preset,
                "-an",
                output];
    if codec == Hevc then cmd + ["-tag:v", "hvc1"] else cmd
  }

  /** Read back, the command carries the codec, the CRF and the preset as given;
      the `hvc1` tag is found after the output file, never among its settings. */
  lemma CommandReadsBack(input: string, output: string, fps: PyNum, codec: string, crf: int,
                         preset: string, renderFloat: Rat -> string)
    requires WellFormed(fps)
    requires !Ffmpeg.IsOption(output)
    ensures Ffmpeg.Read(Command(input, output, fps, codec, crf, preset, renderFloat))
         == Some(Ffmpeg.Invocation(
              Ffmpeg.Settings(true, Some(input), Some(Ffmpeg.SpeedFilter(fps, renderFloat)), Some(codec),
                              Some(Decimal.IntToString(crf)), Some(preset), false, None),
              output,
              if codec == Hevc then ["-tag:v", "hvc1"] else []))
  {
    var cmd := Command(input, output, fps, codec, crf, preset, renderFloat);
    assert cmd == cmd[..14] + cmd[14..];
    Ffmpeg.ReadConverterCommand(input, Ffmpeg.SpeedFilter(fps, renderFloat), codec, Decimal.IntToString(crf),
                                preset, output, cmd[14..]);
  }

  /** What one trial did: skipped (no usable frame rate), crashed (ffmpeg failed,
      so `subprocess.run(check=True)` raised and ended the script), or measured
      the output's size. */
  datatype Trial = Skipped | Crashed(cmd: seq<string>) | Measured(cmd: seq<string>, size: nat)

  /** `convert_experiment(input, output_dir, codec, crf, preset)`, given the decoded
      probe of `input` and, per output path, ffmpeg's outcome: the size of the
      file written, or `None` when ffmpeg exits with an error. */
  function ConvertExperiment(input: string, outputDir: string, codec: string, crf: int,
                             probe: Option<Probe.ProbeData>, ffmpeg: string -> Option<nat>,
                             renderFloat: Rat -> string, preset: string := DefaultPreset): (t: Trial)
    ensures t.Skipped? <==> Probe.ExperimentFps(probe).None? || !NonZero(Probe.ExperimentFps(probe).value)
    ensures t.Measured? <==> !t.Skipped? && ffmpeg(OutputPath(input, outputDir, codec, crf)).Some?
    ensures t.Measured? ==> t.size == ffmpeg(OutputPath(input, outputDir, codec, crf)).value
    ensures !t.Skipped? ==>
      t.cmd == Command(input, OutputPath(input, outputDir, codec, crf), Probe.ExperimentFps(probe).value,
                       codec, crf, preset, renderFloat)
  {
    var output := OutputPath(input, outputDir, codec, crf);
    var fps := Probe.ExperimentFps(probe);
    if fps.None? || !NonZero(fps.value) then Skipped
    else
      var cmd := Command(input, output, fps.value, codec, crf, preset, renderFloat);
      match ffmpeg(output)
      case None => Crashed(cmd)
      case Some(size) => Measured(cmd, size)
  }

  /** Without an explicit preset, a trial that runs ffmpeg uses `medium`: the
      twelfth argument of its command. */
  lemma DefaultPresetIsMedium(input: string, outputDir: string, codec: string, crf: int,
                              probe: Option<Probe.ProbeData>, ffmpeg: string -> Option<nat>,
                              renderFloat: Rat -> string)
    requires Probe.ExperimentFps(probe).Some? && NonZero(Probe.ExperimentFps(probe).value)
    ensures ConvertExperiment(input, outputDir, codec, crf, probe, ffmpeg, renderFloat).cmd[11] == "medium"
  {
    var output := OutputPath(input, outputDir, codec, crf);
    var cmd := Command(input, output, Probe.ExperimentFps(probe).value, codec, crf, DefaultPreset, renderFloat);
    assert ConvertExperiment(input, outputDir, codec, crf, probe, ffmpeg, renderFloat).cmd == cmd;
  }

  /** The three trials `main` runs, in order. */
  datatype Setting = Setting(codec: string, crf: int, preset: string)

  const Trials := [Setting("libx264", 32, "veryslow"), Setting("libx265", 28, "medium"), Setting("libx265", 32, "medium")]

  /** A trial whose ffmpeg failed ends the script. */
  predicate Crashes(t: Trial)
  {
    t.Crashed?
  }

  /** `main`: the three trials in order, ending early at a crash. Each trial
      probes the input afresh: `probe(k)` is what ffprobe reports to trial `k`. */
  function Main(input: string, outputDir: string, probe: nat -> Option<Probe.ProbeData>,
                ffmpeg: string -> Option<nat>, renderFloat: Rat -> string): (run: seq<Trial>)
    ensures |run| <= |Trials|
    ensures forall k :: 0 <= k < |run| ==>
      run[k] == ConvertExperiment(input, outputDir, Trials[k].codec, Trials[k].crf, probe(k), ffmpeg, renderFloat, Trials[k].preset)
    ensures forall k :: 0 <= k < |run| - 1 ==> !run[k].Crashed?
    ensures |run| < |Trials| ==> |run| > 0 && run[|run| - 1].Crashed?
  {
    UntilFirst(seq(|Trials|, k requires 0 <= k < |Trials| =>
      ConvertExperiment(input, outputDir, Trials[k].codec, Trials[k].crf, probe(k), ffmpeg, renderFloat, Trials[k].preset)),
      Crashes)
  }

  /** A missing or zero frame rate in every probe skips every trial: all three
      are skipped and none crashes. */
  lemma NoFrameRateSkipsAll(input: string, outputDir: string, probe: nat -> Option<Probe.ProbeData>,
                            ffmpeg: string -> Option<nat>, renderFloat: Rat -> string)
    requires forall k :: 0 <= k < |Trials| ==>
      Probe.ExperimentFps(probe(k)).None? || !NonZero(Probe.ExperimentFps(probe(k)).value)
    ensures Main(input, outputDir, probe, ffmpeg, renderFloat) == [Skipped, Skipped, Skipped]
  {
    var run := Main(input, outputDir, probe, ffmpeg, renderFloat);
    assert |run| == 3;
  }
}

=== FILE: fallback.dfy ===
/** `generate_summary_with_fallback`: try each model in list order with the same
    video and prompt, stop at the first that answers, never try a model twice.
    The remote `generate_content` is an oracle: `respond(i)` is the outcome of
    the `i`-th call the invoker makes. */
module Fallback {
  import opened Common
  import opened Polling

  /** The fixed summary instruction both Gemini scripts send with the video. */
  const SummaryPrompt := "この動画の内容を日本語で詳細に要約してください。"

  /** One `generate_content(model=…, contents=[video, prompt])` call. */
  datatype Request = Request(model: string, video: VideoFile, prompt: string)

  /** The calls made, in order, and the summary text printed, if any. */
  datatype Outcome = Outcome(calls: seq<Request>, summary: Option<string>)
  {
    /** The invoker's boolean result. */
    predicate Succeeded()
    {
      summary.Some?
    }
  }

  /** The attempts from list position `i` on. */
  function TryFrom(models: seq<string>, video: VideoFile, prompt: string, respond: nat -> Reply, i: nat): (r: Outcome)
    requires i <= |models|
    ensures |r.calls| <= |models| - i
    ensures forall j :: 0 <= j < |r.calls| ==> r.calls[j] == Request(models[i + j], video, prompt)
    ensures r.summary.Some? ==>
      |r.calls| > 0 && respond(i + |r.calls| - 1) == Ok(r.summary.value)
    ensures forall j :: i <= j < i + |r.calls| - 1 ==> respond(j).Err?
    ensures r.summary.None? ==>
      |r.calls| == |models| - i && forall j :: i <= j < |models| ==> respond(j).Err?
    decreases |models| - i
  {
    if i == |models| then Outcome([], None)
    else
      var request := Request(models[i], video, prompt);
      match respond(i)
      case Ok(text) => Outcome([request], Some(text))
      case Err(_) =>
        var rest := TryFrom(models, video, prompt, respond, i + 1);
        Outcome([request] + rest.calls, rest.summary)
  }

  /** `generate_summary_with_fallback(client, video_file, models)`. */
  function GenerateWithFallback(models: seq<string>, video: VideoFile, respond: nat -> Reply): (r: Outcome)
    ensures |r.calls| <= |models|
    ensures forall j :: 0 <= j < |r.calls| ==> r.calls[j] == Request(models[j], video, SummaryPrompt)
    ensures r.Succeeded() <==> exists j :: 0 <= j < |models| && respond(j).Ok?
    ensures r.Succeeded() ==>
      |r.calls| > 0 && respond(|r.calls| - 1) == Ok(r.summary.value) && forall j :: 0 <= j < |r.calls| - 1 ==> respond(j).Err?
    ensures !r.Succeeded() ==> |r.calls| == |models|
  {
    TryFrom(models, video, SummaryPrompt, respond, 0)
  }

  /** The first model that answers is the last one called: if model `k` answers
      and all before it fail, exactly models `0..k` are called and `k`'s text is
      the summary. */
  lemma ShortCircuit(models: seq<string>, video: VideoFile, respond: nat -> Reply, k: nat)
    requires k < |models| && respond(k).Ok?
    requires forall j :: 0 <= j < k ==> respond(j).Err?
    ensures |GenerateWithFallback(models, video, respond).calls| == k + 1
    ensures GenerateWithFallback(models, video, respond).summary == Some(respond(k).text)
  {
  }

  /** When every model fails, each is called exactly once, in order, and there is no summary. */
  lemma Exhaustion(models: seq<string>, video: VideoFile, respond: nat -> Reply)
    requires forall j :: 0 <= j < |models| ==> respond(j).Err?
    ensures GenerateWithFallback(models, video, respond).calls
         == seq(|models|, j requires 0 <= j < |models| => Request(models[j], video, SummaryPrompt))
    ensures !GenerateWithFallback(models, video, respond).Succeeded()
  {
  }

  /** An empty model list makes no call and reports failure. */
  lemma EmptyList(video: VideoFile, respond: nat -> Reply)
    ensures GenerateWithFallback([], video, respond) == Outcome([], None)
  {
  }

  /** Calls not made cannot matter: two services that agree on the answers to
      the calls actually made lead to the same outcome, whatever the later
      models would have said. */
  lemma LaterRepliesIrrelevant(models: seq<string>, video: VideoFile, respond: nat -> Reply, other: nat -> Reply)
    requires forall j :: 0 <= j < |GenerateWithFallback(models, video, respond).calls| ==> other(j) == respond(j)
    ensures GenerateWithFallback(models, video, other) == GenerateWithFallback(models, video, respond)
  {
    TryFromAgrees(models, video, SummaryPrompt, respond, other, 0);
  }

  lemma {:induction false} TryFromAgrees(models: seq<string>, video: VideoFile, prompt: string,
                                         respond: nat -> Reply, other: nat -> Reply, i: nat)
    requires i <= |models|
    requires forall j :: i <= j < i + |TryFrom(models, video, prompt, respond, i).calls| ==> other(j) == respond(j)
    ensures TryFrom(models, video, prompt, other, i) == TryFrom(models, video, prompt, respond, i)
    decreases |models| - i
  {
    if i < |models| {
      var r := TryFrom(models, video, prompt, respond, i);
      var request := Request(models[i], video, prompt);
      assert |r.calls| > 0;
      assert other(i) == respond(i);
      if respond(i).Err? {
        var rest := TryFrom(models, video, prompt, respond, i + 1);
        assert r.calls == [request] + rest.calls;
        assert forall j :: i + 1 <= j < i + 1 + |rest.calls| ==> other(j) == respond(j);
        TryFromAgrees(models, video, prompt, respond, other, i + 1);
        assert TryFrom(models, video, prompt, other, i + 1) == rest;
      }
    }
  }
}

=== FILE: ffmpeg.dfy ===
/** An independent reading of an ffmpeg argument vector, used as the partner of
    the command builders: options are consumed left to right, each value option
    takes the next argument, the first non-option argument is the output file,
    and whatever follows the output file is kept as trailing arguments. */
module Ffmpeg {
  import opened Common
  import opened Numbers

  /** The output settings the converters use. `audio` is cleared by `-an`. */
  datatype Settings = Settings(
    overwrite: bool,
    input: Option<string>,
    filter: Option<string>,
    codec: Option<string>,
    crf: Option<string>,
    preset: Option<string>,
    audio: bool,
    tag: Option<string>)

  /** A read command: the settings in force when the output file was named, the
      output file, and the arguments after it. */
  datatype Invocation = Invocation(settings: Settings, output: string, trailing: seq<string>)

  /** The speed-up filter both converters pass: `f"setpts=PTS/{speed_factor},fps={fps}"`
      with `speed_factor = fps / 2.0`; the timestamps are divided by half the frame
      rate and the output keeps the input's frame rate. */
  function SpeedFilter(fps: PyNum, renderFloat: Rat -> string): (f: string)
    requires WellFormed(fps)
    ensures "setpts=PTS/" <= f
  {
    "setpts=PTS/" + Render(Half(fps), renderFloat) + ",fps=" + Render(fps, renderFloat)
  }

  const Defaults := Settings(false, None, None, None, None, None, true, None)

  predicate IsOption(arg: string)
  {
    |arg| > 0 && arg[0] == '-'
  }

  /** Reads options until the output file; `None` for an unknown option, a value
      option without its value, or no output file at all. */
  function ReadFrom(args: seq<string>, acc: Settings): (read: Option<Invocation>)
    decreases |args|
  {
    if args == [] then None
    else
      var a := args[0];
      if !IsOption(a) then Some(Invocation(acc, a, args[1..]))
      else if a == "-y" then ReadFrom(args[1..], acc.(overwrite := true))
      else if a == "-an" then ReadFrom(args[1..], acc.(audio := false))
      else if |args| < 2 then None
      else
        var v := args[1];
        if a == "-i" then ReadFrom(args[2..], acc.(input := Some(v)))
        else if a == "-filter:v" then ReadFrom(args[2..], acc.(filter := Some(v)))
        else if a == "-c:v" then ReadFrom(args[2..], acc.(codec := Some(v)))
        else if a == "-crf" then ReadFrom(args[2..], acc.(crf := Some(v)))
        else if a == "-preset" then ReadFrom(args[2..], acc.(preset := Some(v)))
        else if a == "-tag:v" then ReadFrom(args[2..], acc.(tag := Some(v)))
        else None
  }

  /** Reads a whole command line whose program is `ffmpeg`. */
  function Read(cmd: seq<string>): (read: Option<Invocation>)
  {
    if |cmd| > 0 && cmd[0] == "ffmpeg" then ReadFrom(cmd[1..], Defaults) else None
  }

  /** The command shape both converters build reads back option by option: the
      settings named before the output file, then the output, then what follows it. */
  lemma ReadConverterCommand(input: string, filter: string, codec: string, crf: string,
                             preset: string, output: string, trailing: seq<string>)
    requires !IsOption(output)
    ensures Read(["ffmpeg", "-y", "-i", input, "-filter:v", filter, "-c:v", codec,
                  "-crf", crf, "-preset", preset, "-an", output] + trailing)
         == Some(Invocation(Settings(true, Some(input), Some(filter), Some(codec), Some(crf),
                                     Some(preset), false, None), output, trailing))
  {
    var cmd := ["ffmpeg", "-y", "-i", input, "-filter:v", filter, "-c:v", codec,
                "-crf", crf, "-preset", preset, "-an", output] + trailing;
    var s1 := Defaults.(overwrite := true);
    var s2 := s1.(input := Some(input));
    var s3 := s2.(filter := Some(filter));
    var s4 := s3.(codec := Some(codec));
    var s5 := s4.(crf := Some(crf));
    var s6 := s5.(preset := Some(preset));
    var s7 := s6.(audio := false);
    assert cmd[13..] == [output] + trailing;
    assert ReadFrom(cmd[13..], s7) == Some(Invocation(s7, output, trailing));
    assert ReadFrom(cmd[12..], s6) == ReadFrom(cmd[13..], s7);
    assert ReadFrom(cmd[10..], s5) == ReadFrom(cmd[12..], s6);
    assert ReadFrom(cmd[8..], s4) == ReadFrom(cmd[10..], s5);
    assert ReadFrom(cmd[6..], s3) == ReadFrom(cmd[8..], s4);
    assert ReadFrom(cmd[4..], s2) == ReadFrom(cmd[6..], s3);
    assert ReadFrom(cmd[2..], s1) == ReadFrom(cmd[4..], s2);
    assert ReadFrom(cmd[1..], Defaults) == ReadFrom(cmd[2..], s1);
  }
}

=== FILE: frame_analysis.dfy ===
/** `analyze_video_with_qwen` and the local entry point of the frame-analysis
    job: keep every 30th decoded frame, ask the local vision model about each
    kept frame in turn, and join one labelled line per frame with blank lines.
    Frame decoding and the model are oracles: the sequence of frames the
    capture yields, and `infer(i)`, the outcome of the `i`-th completion call. */
module FrameAnalysis {
  import opened Common
  import Decimal
  import Text

  const FrameInterval := 30
  const Separator := "\n\n"
  const DownloadFailed := "Model download failed"

  /** The reading loop: frame `count` is kept exactly when `count % 30 == 0`,
      in reading order, so `n` frames read keep `ceil(n / 30)` of them. */
  method SampleFrames<F>(frames: seq<F>) returns (sampled: seq<F>)
    ensures |sampled| == (|frames| + FrameInterval - 1) / FrameInterval
    ensures forall k :: 0 <= k < |sampled| ==> sampled[k] == frames[FrameInterval * k]
    ensures forall c :: 0 <= c < |frames| && c % FrameInterval == 0 ==>
      c / FrameInterval < |sampled| && sampled[c / FrameInterval] == frames[c]
  {
    sampled := [];
    var count := 0;
    while count < |frames|
      invariant 0 <= count <= |frames|
      invariant |sampled| == (count + FrameInterval - 1) / FrameInterval
      invariant forall k :: 0 <= k < |sampled| ==> FrameInterval * k < count && sampled[k] == frames[FrameInterval * k]
    {
      if count % FrameInterval == 0 {
        sampled := sampled + [frames[count]];
      }
      count := count + 1;
    }
    forall c | 0 <= c < |frames| && c % FrameInterval == 0
      ensures c / FrameInterval < |sampled| && sampled[c / FrameInterval] == frames[c]
    {
      assert FrameInterval * (c / FrameInterval) == c;
    }
  }

  /** `f"Frame {i+1}: "`: frames are numbered from 1. */
  function Label(i: nat): (prefix: string)
    ensures "Frame " <= prefix && |prefix| > 8 && prefix[|prefix| - 2..] == ": "
  {
    "Frame " + Decimal.NatToString(i + 1) + ": "
  }

  /** The outcome of one chat-completion call: the reply message's content,
      which the library may give as `None`, or an exception with its text. */
  datatype Completion = Answered(content: Option<string>) | Raised(message: string)

  /** `str(e)` for the `TypeError` raised by slicing `None`. */
  const NoneSliceError := "'NoneType' object is not subscriptable"

  /** The line appended for frame `i`: its label, then the content (`None`
      printed as such) or the error. */
  function ResultLine(i: nat, reply: Completion): (line: string)
    ensures Label(i) <= line
  {
    match reply
    case Answered(Some(content)) => Label(i) + content
    case Answered(None) => Label(i) + "None"
    case Raised(message) => Label(i) + "Error - " + message
  }

  /** The lines frame `i` adds. The progress print after the append slices the
      content, so a `None` content raises there and the handler appends a
      second, error line for the same frame. */
  function FrameLines(i: nat, reply: Completion): (lines: seq<string>)
    ensures 1 <= |lines| <= 2 && lines[0] == ResultLine(i, reply)
    ensures |lines| == 2 <==> reply == Answered(None)
    ensures forall k :: 0 <= k < |lines| ==> Label(i) <= lines[k]
  {
    if reply == Answered(None) then [ResultLine(i, reply), Label(i) + "Error - " + NoneSliceError]
    else [ResultLine(i, reply)]
  }

  /** The results list after the first `n` kept frames. */
  function LinesUpTo(n: nat, infer: nat -> Completion): (lines: seq<string>)
    ensures n <= |lines| <= 2 * n
  {
    if n == 0 then [] else LinesUpTo(n - 1, infer) + FrameLines(n - 1, infer(n - 1))
  }

  /** Whenever every content is present or every failure raised, there is
      exactly one line per frame, in frame order. */
  lemma {:induction false} OneLinePerFrame(n: nat, infer: nat -> Completion)
    requires forall i :: 0 <= i < n ==> infer(i) != Answered(None)
    ensures LinesUpTo(n, infer) == seq(n, i requires 0 <= i < n => ResultLine(i, infer(i)))
  {
    if n > 0 {
      var prev := seq(n - 1, i requires 0 <= i < n - 1 => ResultLine(i, infer(i)));
      var last := ResultLine(n - 1, infer(n - 1));
      OneLinePerFrame(n - 1, infer);
      assert FrameLines(n - 1, infer(n - 1)) == [last];
      assert LinesUpTo(n, infer) == prev + [last];
      assert prev + [last] == seq(n, i requires 0 <= i < n => ResultLine(i, infer(i)));
    }
  }

  /** A `None` content among the first `n` frames adds a line beyond one per frame. */
  lemma {:induction false} NoneAddsLine(n: nat, infer: nat -> Completion, k: nat)
    requires k < n && infer(k) == Answered(None)
    ensures |LinesUpTo(n, infer)| > n
  {
    if k < n - 1 {
      NoneAddsLine(n - 1, infer, k);
    }
  }

  /** There is one line per frame exactly when no content is `None`. */
  lemma LineCount(n: nat, infer: nat -> Completion)
    ensures |LinesUpTo(n, infer)| == n <==> forall i :: 0 <= i < n ==> infer(i) != Answered(None)
  {
    if forall i :: 0 <= i < n ==> infer(i) != Answered(None) {
      OneLinePerFrame(n, infer);
    } else {
      var k :| 0 <= k < n && infer(k) == Answered(None);
      NoneAddsLine(n, infer, k);
    }
  }

  /** The inference loop: each kept frame adds its lines in order; a failed
      inference yields an error line and the loop goes on with the next frame. */
  method DescribeFrames(count: nat, infer: nat -> Completion) returns (results: seq<string>)
    ensures results == LinesUpTo(count, infer)
    ensures count <= |results| <= 2 * count
    ensures (forall i :: 0 <= i < count ==> infer(i) != Answered(None)) ==>
      |results| == count && forall i :: 0 <= i < count ==> results[i] == ResultLine(i, infer(i))
  {
    results := [];
    var i := 0;
    while i < count
      invariant 0 <= i <= count
      invariant results == LinesUpTo(i, infer)
    {
      results := results + FrameLines(i, infer(i));
      i := i + 1;
    }
    if forall i :: 0 <= i < count ==> infer(i) != Answered(None) {
      OneLinePerFrame(count, infer);
    }
  }

  /** `analyze_video_with_qwen`: a failed model download answers with a fixed
      message before any frame is read or any inference made; otherwise one
      inference per kept frame and the frames' lines joined with blank lines
      (empty without frames). */
  method AnalyzeVideo<F>(downloadOk: bool, frames: seq<F>, infer: nat -> Completion)
    returns (output: string, inferences: nat)
    ensures !downloadOk ==> output == DownloadFailed && inferences == 0
    ensures downloadOk ==> inferences == (|frames| + FrameInterval - 1) / FrameInterval
    ensures downloadOk ==> output == Text.Join(LinesUpTo(inferences, infer), Separator)
    ensures downloadOk && |frames| == 0 ==> output == ""
  {
    if !downloadOk {
      return DownloadFailed, 0;
    }
    var sampled := SampleFrames(frames);
    var results := DescribeFrames(|sampled|, infer);
    output := Text.Join(results, Separator);
    inferences := |sampled|;
  }

  /** The local entry point: a missing input file ends it before any remote
      call; otherwise the remote analysis's text is the result. */
  method LocalEntrypoint<F>(inputExists: bool, downloadOk: bool, frames: seq<F>, infer: nat -> Completion)
    returns (result: Option<string>)
    ensures !inputExists <==> result.None?
    ensures inputExists && !downloadOk ==> result == Some(DownloadFailed)
    ensures inputExists && downloadOk ==>
      result == Some(Text.Join(LinesUpTo((|frames| + FrameInterval - 1) / FrameInterval, infer), Separator))
  {
    if !inputExists {
      return None;
    }
    var output, _ := AnalyzeVideo(downloadOk, frames, infer);
    result := Some(output);
  }
}

=== FILE: numbers.dfy ===
/** Python numbers as they occur in the frame-rate arithmetic: an `int`, or a
    `float` produced by true division, kept here as the exact fraction. */
module Numbers {
  import opened Common
  import Decimal

  /** The fraction `num / den`. */
  datatype Rat = Rat(num: int, den: int)

  /** A Python `int` or a Python `float` (the quotient of a true division). */
  datatype PyNum = PyInt(i: int) | PyFloat(q: Rat)

  /** Every float here comes from a division that did not raise `ZeroDivisionError`. */
  predicate WellFormed(n: PyNum)
  {
    n.PyFloat? ==> n.q.den != 0
  }

  function Value(n: PyNum): (v: real)
    requires WellFormed(n)
  {
    match n
    case PyInt(i) => i as real
    case PyFloat(q) => q.num as real / q.den as real
  }

  /** `num / den` in Python 3: always a float, `None` on a zero denominator. */
  function Divide(num: int, den: int): (r: Option<PyNum>)
    ensures r.Some? <==> den != 0
    ensures r.Some? ==> r.value.PyFloat? && WellFormed(r.value)
    ensures r.Some? ==> Value(r.value) * den as real == num as real
  {
    if den == 0 then None else Some(PyFloat(Rat(num, den)))
  }

  /** Python truthiness: `0` and `0.0` are false, every other number is true. */
  predicate NonZero(n: PyNum)
    requires WellFormed(n)
  {
    Value(n) != 0.0
  }

  /** `n / 2.0`: a float whose double is `n`. */
  function Half(n: PyNum): (h: PyNum)
    requires WellFormed(n)
    ensures h.PyFloat? && WellFormed(h)
    ensures Value(h) * 2.0 == Value(n)
  {
    match n
    case PyInt(i) => PyFloat(Rat(i, 2))
    case PyFloat(q) => PyFloat(Rat(q.num, q.den * 2))
  }

  /** The text an f-string substitutes for `n`: `str(i)` for an int; for a float,
      whatever Python's shortest round-trip rendering gives, supplied by the caller. */
  function Render(n: PyNum, renderFloat: Rat -> string): (s: string)
    ensures n.PyInt? ==> Decimal.ParseInt(s) == Some(n.i)
  {
    match n
    case PyInt(i) =>
      Decimal.ParseIntToString(i);
      Decimal.IntToString(i)
    case PyFloat(q) => renderFloat(q)
  }
}

=== FILE: paths.dfy ===
/** POSIX path helpers as Python's `posixpath` defines them:
    `basename`, two-argument `join` and `splitext`. */
module Paths {

  /** Position of the last `c` in `s`, or -1 when there is none (`str.rfind`). */
  function LastIndex(s: string, c: char): (k: int)
    ensures -1 <= k < |s|
    ensures k >= 0 ==> s[k] == c
    ensures forall j :: k < j < |s| ==> s[j] != c
  {
    if s == [] then -1
    else if s[|s| - 1] == c then |s| - 1
    else LastIndex(s[..|s| - 1], c)
  }

  /** The last occurrence is the unique position with no later occurrence. */
  lemma LastIndexUnique(s: string, c: char, k: int)
    requires -1 <= k < |s|
    requires k >= 0 ==> s[k] == c
    requires forall j :: k < j < |s| ==> s[j] != c
    ensures LastIndex(s, c) == k
  {
  }

  /** `os.path.basename(p)`: the longest suffix of `p` without a slash. */
  function Basename(p: string): (b: string)
    ensures '/' !in b
    ensures |b| <= |p| && p[|p| - |b|..] == b
    ensures |b| < |p| ==> p[|p| - |b| - 1] == '/'
  {
    if p == [] then []
    else if p[|p| - 1] == '/' then []
    else
      var init := p[..|p| - 1];
      var b := Basename(init) + [p[|p| - 1]];
      assert p == init + [p[|p| - 1]];
      b
  }

  predicate EndsWithSlash(s: string)
  {
    |s| > 0 && s[|s| - 1] == '/'
  }

  /** `os.path.join(a, b)`: an absolute `b` replaces `a`; otherwise one slash
      separates them unless `a` is empty or already ends with one. */
  function PathJoin(a: string, b: string): (r: string)
    ensures |b| > 0 && b[0] == '/' ==> r == b
    ensures !(|b| > 0 && b[0] == '/') ==> a <= r && |b| <= |r| && r[|r| - |b|..] == b
  {
    if |b| > 0 && b[0] == '/' then b
    else if a == [] || EndsWithSlash(a) then a + b
    else a + "/" + b
  }

  /** What `join` puts between a directory and a relative name: the text before
      the name is the directory itself when that is empty or already ends with a
      slash, and the directory plus exactly one slash otherwise. */
  lemma JoinSeparator(a: string, b: string)
    ensures !(|b| > 0 && b[0] == '/') ==>
      var r := PathJoin(a, b);
      var d := r[..|r| - |b|];
      && (d == a || d == a + "/")
      && (d == [] || EndsWithSlash(d))
      && (d == a <==> a == [] || EndsWithSlash(a))
  {
  }

  /** A slash-free name placed after a directory is that path's basename. */
  lemma BasenameOfJoin(dir: string, name: string)
    requires '/' !in name
    ensures Basename(PathJoin(dir, name)) == name
  {
    if dir == [] || EndsWithSlash(dir) {
      BasenameAfterSlash(dir, name);
    } else {
      BasenameAfterSlash(dir + "/", name);
      assert dir + "/" + name == (dir + "/") + name;
    }
  }

  /** `p` names an entry directly inside `dir`: what precedes its base name is
      `dir` itself, or `dir` followed by one separating slash. */
  predicate DirectlyIn(p: string, dir: string)
  {
    var d := p[..|p| - |Basename(p)|];
    d == dir || d == dir + "/"
  }

  /** Joining a slash-free name to a directory gives an entry directly inside it. */
  lemma JoinIsDirectlyIn(dir: string, name: string)
    requires '/' !in name
    ensures DirectlyIn(PathJoin(dir, name), dir)
  {
    BasenameOfJoin(dir, name);
    JoinSeparator(dir, name);
  }

  lemma {:induction false} BasenameAfterSlash(dir: string, name: string)
    requires dir == [] || EndsWithSlash(dir)
    requires '/' !in name
    ensures Basename(dir + name) == name
    decreases |name|
  {
    var p := dir + name;
    if name == [] {
      assert p == dir;
    } else {
      var init := name[..|name| - 1];
      var last := name[|name| - 1];
      assert init + [last] == name;
      assert p[..|p| - 1] == dir + init;
      assert p[|p| - 1] == last && last != '/';
      BasenameAfterSlash(dir, init);
      assert Basename(p) == Basename(dir + init) + [last];
    }
  }

  /** Some character strictly between positions `lo` and `hi` of `p` is not a dot. */
  predicate NonDotBetween(p: string, lo: int, hi: int)
    requires -1 <= lo && hi <= |p|
  {
    exists j :: lo < j < hi && p[j] != '.'
  }

  /** `os.path.splitext(p)`: the extension starts at the last dot of the last
      path component, provided some non-dot character precedes that dot within
      the component (so `.bashrc` has no extension). */
  function SplitExt(p: string): (r: (string, string))
    ensures r.0 + r.1 == p
    ensures r.1 != "" ==> r.1[0] == '.' && '.' !in r.1[1..] && '/' !in r.1
    ensures r.1 != "" ==> LastIndex(p, '/') < |r.0| && NonDotBetween(p, LastIndex(p, '/'), |r.0|)
    ensures r.1 == "" ==> forall j :: LastIndex(p, '/') < j < |p| && p[j] == '.' ==>
      !NonDotBetween(p, LastIndex(p, '/'), j)
  {
    var sepIndex := LastIndex(p, '/');
    var dotIndex := LastIndex(p, '.');
    if dotIndex > sepIndex && NonDotBetween(p, sepIndex, dotIndex) then
      assert p[..dotIndex] + p[dotIndex..] == p;
      (p[..dotIndex], p[dotIndex..])
    else (p, "")
  }

  /** Inserting a dot-free, slash-free tag between a file name's stem and its
      extension keeps that extension: the stem grows by the tag, nothing else moves. */
  lemma KeepsExtension(name: string, tag: string)
    requires '/' !in name
    requires |tag| > 0 && '.' !in tag && '/' !in tag
    ensures SplitExt(SplitExt(name).0 + tag + SplitExt(name).1)
         == (SplitExt(name).0 + tag, SplitExt(name).1)
  {
    var (stem, ext) := SplitExt(name);
    if ext == "" {
      assert stem == name;
      KeepsNoExtension(name, tag);
      assert stem + tag + ext == name + tag;
    } else {
      KeepsSomeExtension(stem, tag, ext);
    }
  }

  lemma KeepsNoExtension(name: string, tag: string)
    requires '/' !in name && SplitExt(name).1 == ""
    requires '.' !in tag && '/' !in tag
    ensures SplitExt(name + tag) == (name + tag, "")
  {
    var p := name + tag;
    assert '/' !in p;
    LastIndexUnique(name, '/', -1);
    LastIndexUnique(p, '/', -1);
    var d := LastIndex(name, '.');
    forall j | d < j < |p|
      ensures p[j] != '.'
    {
      if j >= |name| {
        assert p[j] == tag[j - |name|];
      } else {
        assert p[j] == name[j];
      }
    }
    LastIndexUnique(p, '.', d);
    assert forall j :: -1 < j < d ==> p[j] == name[j];
  }

  lemma KeepsSomeExtension(stem: string, tag: string, ext: string)
    requires '/' !in stem && '/' !in ext && ext != "" && ext[0] == '.' && '.' !in ext[1..]
    requires |tag| > 0 && '.' !in tag && '/' !in tag
    ensures SplitExt(stem + tag + ext) == (stem + tag, ext)
  {
    var p := stem + tag + ext;
    var d := |stem| + |tag|;
    assert '/' !in p;
    LastIndexUnique(p, '/', -1);
    assert p[d] == '.';
    forall j | d < j < |p|
      ensures p[j] != '.'
    {
      assert p[j] == ext[1..][j - d - 1];
    }
    LastIndexUnique(p, '.', d);
    assert p[|stem|] == tag[0];
    assert NonDotBetween(p, -1, d);
    assert p[..d] == stem + tag;
    assert p[d..] == ext;
  }
}

=== FILE: polling.dfy ===
/** The upload-state polling loop both Gemini scripts run after uploading the
    video: while the file's state is `PROCESSING`, wait and fetch the file again
    by its name. The remote service is an oracle: the finite sequence of answers
    its `files.get` calls give. */
module Polling {

  const Processing := "PROCESSING"
  const Failed := "FAILED"

  /** A remote file handle: its resource name and the name of its processing state. */
  datatype VideoFile = VideoFile(name: string, state: string)

  /** The answer to one `files.get` call: the file as it is now, or an exception. */
  datatype Fetch = Fetched(file: VideoFile) | FetchRaised(message: string)

  /** How the loop ended: with a file no longer `PROCESSING`, with a `files.get`
      that raised, or still `PROCESSING` when the given answers ran out. */
  datatype PollEnd = Ready(file: VideoFile) | GetRaised(message: string) | StillProcessing

  /** The names requested from `files.get`, in order, and how the loop ended. */
  datatype Poll = Poll(gets: seq<string>, end: PollEnd)

  /** The first `k` answers were all files. */
  predicate FetchedUpTo(fetches: seq<Fetch>, k: nat)
  {
    k <= |fetches| && forall j :: 0 <= j < k ==> fetches[j].Fetched?
  }

  /** The file the loop holds after `k` successful fetches. */
  function Observed(initial: VideoFile, fetches: seq<Fetch>, k: nat): (file: VideoFile)
    requires FetchedUpTo(fetches, k)
  {
    if k == 0 then initial else fetches[k - 1].file
  }

  /** The loop: one `files.get` per `PROCESSING` state seen, each by the name of
      the file last seen, stopping at the first other state. */
  function AwaitReady(file: VideoFile, fetches: seq<Fetch>): (r: Poll)
    ensures |r.gets| <= |fetches|
    ensures r.end.GetRaised? ==>
      |r.gets| > 0 && FetchedUpTo(fetches, |r.gets| - 1) && fetches[|r.gets| - 1] == FetchRaised(r.end.message)
    ensures !r.end.GetRaised? ==> FetchedUpTo(fetches, |r.gets|)
    ensures forall j :: 0 <= j < |r.gets| && FetchedUpTo(fetches, j) ==>
      Observed(file, fetches, j).state == Processing && r.gets[j] == Observed(file, fetches, j).name
    ensures r.end.Ready? ==>
      FetchedUpTo(fetches, |r.gets|) &&
      r.end.file == Observed(file, fetches, |r.gets|) && r.end.file.state != Processing
    ensures r.end.StillProcessing? ==>
      |r.gets| == |fetches| && Observed(file, fetches, |r.gets|).state == Processing
    decreases |fetches|
  {
    if file.state != Processing then Poll([], Ready(file))
    else if fetches == [] then Poll([], StillProcessing)
    else
      match fetches[0]
      case FetchRaised(m) => Poll([file.name], GetRaised(m))
      case Fetched(next) =>
        var rest := AwaitReady(next, fetches[1..]);
        ShiftObserved(file, fetches, |rest.gets|);
        var r := Poll([file.name] + rest.gets, rest.end);
        assert forall j :: 1 <= j <= |rest.gets| && FetchedUpTo(fetches, j) ==>
          FetchedUpTo(fetches[1..], j - 1) && Observed(file, fetches, j) == Observed(next, fetches[1..], j - 1);
        r
  }

  /** Dropping the first answer shifts what is observed by one step. */
  lemma ShiftObserved(file: VideoFile, fetches: seq<Fetch>, n: nat)
    requires |fetches| > 0 && fetches[0].Fetched?
    ensures forall j :: 1 <= j <= n + 1 && FetchedUpTo(fetches, j) ==>
      FetchedUpTo(fetches[1..], j - 1) && Observed(file, fetches, j) == Observed(fetches[0].file, fetches[1..], j - 1)
  {
  }

  /** A file that is not `PROCESSING` right after upload is used at once: no fetch. */
  lemma ReadyAtOnce(file: VideoFile, fetches: seq<Fetch>)
    requires file.state != Processing
    ensures AwaitReady(file, fetches) == Poll([], Ready(file))
  {
  }

  /** While the service keeps the file's name, every fetch asks for the uploaded name. */
  lemma SameNameEachTime(file: VideoFile, fetches: seq<Fetch>)
    requires forall j :: 0 <= j < |fetches| && fetches[j].Fetched? ==> fetches[j].file.name == file.name
    ensures forall j :: 0 <= j < |AwaitReady(file, fetches).gets| ==> AwaitReady(file, fetches).gets[j] == file.name
  {
    var r := AwaitReady(file, fetches);
    forall j | 0 <= j < |r.gets|
      ensures r.gets[j] == file.name
    {
      assert FetchedUpTo(fetches, j);
    }
  }

  /** The number of fetches is the number of leading `PROCESSING` states: after
      `n` states that are all `PROCESSING` and then one that is not, the loop
      has fetched exactly `n` times and holds that last file. */
  lemma PollCount(file: VideoFile, fetches: seq<Fetch>, n: nat)
    requires FetchedUpTo(fetches, n)
    requires forall j :: 0 <= j < n ==> Observed(file, fetches, j).state == Processing
    requires Observed(file, fetches, n).state != Processing
    ensures AwaitReady(file, fetches) == Poll(AwaitReady(file, fetches).gets, Ready(Observed(file, fetches, n)))
    ensures |AwaitReady(file, fetches).gets| == n
  {
  }
}

=== FILE: probe.dfy ===
/** The ffprobe record both converters read, and the two ways they interpret it
    (`get_video_info` in the timelapse converter and in the compression experiment). */
module Probe {
  import opened Common
  import opened Numbers
  import Decimal
  import Text

  /** The first video stream's entries; each key may be absent. */
  datatype Stream = Stream(rFrameRate: Option<string>, bitRate: Option<string>)

  /** The container-level entries. */
  datatype Format = Format(bitRate: Option<string>)

  /** ffprobe's decoded JSON output: the `streams` and `format` keys, each possibly absent. */
  datatype ProbeData = ProbeData(streams: Option<seq<Stream>>, format: Option<Format>)

  /** What the timelapse converter learns: a frame rate and a bit rate. */
  datatype VideoInfo = VideoInfo(fps: PyNum, bitRate: int)

  /** `num, den = map(int, s.split('/'))` followed by `num / den`; `None` for the
      failures modelled here (not exactly two parts, a part that is not an
      integer, a zero denominator). The quotient is exact, so a float overflow
      or underflow is not one of them. */
  function ParseFrameRate(s: string): (r: Option<Rat>)
    ensures r.Some? ==> r.value.den != 0
  {
    var parts := Text.Split(s, '/');
    if |parts| != 2 then None
    else
      match (Decimal.ParseInt(parts[0]), Decimal.ParseInt(parts[1]))
      case (Some(n), Some(d)) => if d == 0 then None else Some(Rat(n, d))
      case _ => None
  }

  /** A frame rate written as ffprobe writes it, `"<num>/<den>"`, parses back to that fraction. */
  lemma ParseFrameRateOfText(n: int, d: int)
    requires d != 0
    ensures ParseFrameRate(Decimal.IntToString(n) + "/" + Decimal.IntToString(d)) == Some(Rat(n, d))
  {
    Text.SplitPair(Decimal.IntToString(n), Decimal.IntToString(d), '/');
    Decimal.ParseIntToString(n);
    Decimal.ParseIntToString(d);
  }

  /** Conversely, text that parses has exactly one slash, an integer on each side
      of it and a non-zero integer after it. */
  lemma ParsedFrameRateShape(s: string)
    requires ParseFrameRate(s).Some?
    ensures '/' in s
    ensures var k := Text.IndexOf(s, '/');
      && '/' !in s[k + 1..]
      && Decimal.ParseInt(s[..k]) == Some(ParseFrameRate(s).value.num)
      && Decimal.ParseInt(s[k + 1..]) == Some(ParseFrameRate(s).value.den)
  {
    var k := Text.IndexOf(s, '/');
    var parts := Text.Split(s, '/');
    assert parts == [s[..k]] + Text.Split(s[k + 1..], '/');
    assert |Text.Split(s[k + 1..], '/')| == 1;
  }

  /** The first stream, when `streams` is present and non-empty. */
  function FirstStream(data: ProbeData): (first: Option<Stream>)
  {
    if data.streams.Some? && |data.streams.value| > 0 then Some(data.streams.value[0]) else None
  }

  /** The bit-rate text the timelapse converter settles on: the stream's own when
      truthy, else the container's when a `format` entry exists, else the stream's. */
  function ChosenBitRate(data: ProbeData, stream: Stream): (raw: Option<string>)
  {
    if !Present(stream.bitRate) && data.format.Some? then data.format.value.bitRate
    else stream.bitRate
  }

  /** `get_video_info` of the timelapse converter over the decoded probe output
      (`None` for a failed probe). `None` is its `(None, None)`. */
  function TimelapseVideoInfo(probe: Option<ProbeData>): (r: Option<VideoInfo>)
    ensures r.Some? ==> WellFormed(r.value.fps)
    ensures r.Some? ==> probe.Some? && FirstStream(probe.value).Some?
  {
    if probe.None? then None
    else
      match FirstStream(probe.value)
      case None => None
      case Some(stream) =>
        var fps :=
          if Present(stream.rFrameRate) then
            match ParseFrameRate(stream.rFrameRate.value)
            case None => None
            case Some(q) => Some(PyFloat(q))
          else Some(PyInt(0));
        var raw := ChosenBitRate(probe.value, stream);
        var bitRate := if Present(raw) then Decimal.ParseInt(raw.value) else Some(0);
        if fps.None? || bitRate.None? then None
        else Some(VideoInfo(fps.value, bitRate.value))
  }

  /** `get_video_info` of the compression experiment: only the frame rate, and
      `None` for a missing stream, a missing or empty `r_frame_rate`, or any error. */
  function ExperimentFps(probe: Option<ProbeData>): (r: Option<PyNum>)
    ensures r.Some? ==> r.value.PyFloat? && WellFormed(r.value)
    ensures r.Some? <==>
      && probe.Some?
      && FirstStream(probe.value).Some?
      && Present(FirstStream(probe.value).value.rFrameRate)
      && ParseFrameRate(FirstStream(probe.value).value.rFrameRate.value).Some?
    ensures r.Some? ==> r.value.q == ParseFrameRate(FirstStream(probe.value).value.rFrameRate.value).value
  {
    if probe.None? then None
    else
      match FirstStream(probe.value)
      case None => None
      case Some(stream) =>
        if Present(stream.rFrameRate) then
          match ParseFrameRate(stream.rFrameRate.value)
          case None => None
          case Some(q) => Some(PyFloat(q))
        else None
  }

  /** The experiment reads a well-formed `"<num>/<den>"` frame rate as that fraction. */
  lemma ExperimentFpsOfText(data: ProbeData, n: int, d: int, br: Option<string>)
    requires d != 0
    requires FirstStream(data) == Some(Stream(Some(Decimal.IntToString(n) + "/" + Decimal.IntToString(d)), br))
    ensures ExperimentFps(Some(data)) == Some(PyFloat(Rat(n, d)))
  {
    ParseFrameRateOfText(n, d);
  }

  /** A frame rate of `"0/<den>"` is read as the float 0.0, which is falsy: the
      experiment's `if not fps` treats it like a missing frame rate. */
  lemma ZeroFrameRateIsFalsy(data: ProbeData, d: int, br: Option<string>)
    requires d != 0
    requires FirstStream(data) == Some(Stream(Some(Decimal.IntToString(0) + "/" + Decimal.IntToString(d)), br))
    ensures ExperimentFps(Some(data)).Some? && !NonZero(ExperimentFps(Some(data)).value)
  {
    ExperimentFpsOfText(data, 0, d, br);
    ZeroFloatIsFalsy(d);
  }

  lemma ZeroFloatIsFalsy(d: int)
    requires d != 0
    ensures !NonZero(PyFloat(Rat(0, d)))
  {
    assert 0 as real / d as real == 0.0;
  }

  /** No decoded output, no `streams` key or an empty stream list: no information. */
  lemma NoStreamNoInfo(probe: Option<ProbeData>)
    requires probe.None? || probe.value.streams.None? || probe.value.streams.value == []
    ensures TimelapseVideoInfo(probe).None?
    ensures ExperimentFps(probe).None?
  {
  }

  /** The timelapse converter's frame rate: `num/den` for a present `r_frame_rate`,
      the integer 0 for an absent or empty one. */
  lemma TimelapseFrameRate(data: ProbeData, stream: Stream, bitRate: int)
    requires FirstStream(data) == Some(stream)
    requires TimelapseVideoInfo(Some(data)).Some?
    ensures Present(stream.rFrameRate) ==>
      ParseFrameRate(stream.rFrameRate.value).Some? &&
      TimelapseVideoInfo(Some(data)).value.fps == PyFloat(ParseFrameRate(stream.rFrameRate.value).value)
    ensures !Present(stream.rFrameRate) ==> TimelapseVideoInfo(Some(data)).value.fps == PyInt(0)
  {
  }

  /** A well-formed `"<num>/<den>"` frame rate is read as the value `num/den`. */
  lemma TimelapseFrameRateValue(data: ProbeData, n: int, d: int, br: Option<string>)
    requires d != 0
    requires FirstStream(data) == Some(Stream(Some(Decimal.IntToString(n) + "/" + Decimal.IntToString(d)), br))
    requires TimelapseVideoInfo(Some(data)).Some?
    ensures Value(TimelapseVideoInfo(Some(data)).value.fps) == n as real / d as real
  {
    ParseFrameRateOfText(n, d);
  }

  /** The bit rate comes from the stream when it has a non-empty one; otherwise from
      the container when there is a `format` entry; otherwise it is 0. */
  lemma TimelapseBitRate(data: ProbeData, stream: Stream)
    requires FirstStream(data) == Some(stream)
    requires TimelapseVideoInfo(Some(data)).Some?
    ensures Present(stream.bitRate) ==>
      Decimal.ParseInt(stream.bitRate.value) == Some(TimelapseVideoInfo(Some(data)).value.bitRate)
    ensures !Present(stream.bitRate) && data.format.Some? && Present(data.format.value.bitRate) ==>
      Decimal.ParseInt(data.format.value.bitRate.value) == Some(TimelapseVideoInfo(Some(data)).value.bitRate)
    ensures !Present(stream.bitRate) && (data.format.None? || !Present(data.format.value.bitRate)) ==>
      TimelapseVideoInfo(Some(data)).value.bitRate == 0
  {
  }

  /** Any exception inside the probe interpretation yields no information: an
      unparsable frame rate or an unparsable chosen bit rate. */
  lemma TimelapseErrors(data: ProbeData, stream: Stream)
    requires FirstStream(data) == Some(stream)
    ensures TimelapseVideoInfo(Some(data)).None? <==>
      (Present(stream.rFrameRate) && ParseFrameRate(stream.rFrameRate.value).None?) ||
      (Present(ChosenBitRate(data, stream)) && Decimal.ParseInt(ChosenBitRate(data, stream).value).None?)
  {
  }

  /** The two scripts agree on the frame rate wherever both report one; where the
      stream has no frame rate the timelapse converter reports the integer 0 and
      the experiment reports nothing. */
  lemma FrameRatesAgree(probe: Option<ProbeData>)
    ensures ExperimentFps(probe).Some? && TimelapseVideoInfo(probe).Some? ==>
      TimelapseVideoInfo(probe).value.fps == ExperimentFps(probe).value
    ensures TimelapseVideoInfo(probe).Some? && TimelapseVideoInfo(probe).value.fps.PyFloat? ==>
      ExperimentFps(probe) == Some(TimelapseVideoInfo(probe).value.fps)
    ensures TimelapseVideoInfo(probe).Some? && TimelapseVideoInfo(probe).value.fps == PyInt(0) ==>
      ExperimentFps(probe).None?
  {
  }
}

=== FILE: session.dfy ===
/** What both Gemini scripts do before generating: check the API key, create
    the client, check that the video exists, upload it and wait for processing.
    The environment and the remote service are given as an oracle record. */
module Session {
  import opened Common
  import opened Polling
  import Fallback

  /** The answer to `files.upload`: the new remote file, or an exception. */
  datatype Upload = Uploaded(file: VideoFile) | UploadRaised(message: string)

  /** Everything outside the script: the `GOOGLE_API_KEY` variable, whether the
      client constructor succeeds, whether the video path exists, and the remote
      service's answers to upload, `files.get` and `generate_content`. */
  datatype Environment = Environment(
    apiKey: Option<string>,
    clientOk: bool,
    videoExists: bool,
    upload: Upload,
    fetches: seq<Fetch>,
    respond: nat -> Reply)

  /** The observable calls a run makes, in order. */
  datatype Event = CreateClient | UploadFile(path: string) | GetFile(name: string) | Generate(request: Fallback.Request)

  /** How a run ends: a process exit code, or still waiting on a `PROCESSING`
      file when the given `files.get` answers ran out. */
  datatype Exit = Exited(code: nat) | Waiting

  /** A whole run: its calls, how it ended, and the summary it printed. */
  datatype Run = Run(events: seq<Event>, exit: Exit, summary: Option<string>)

  /** The preparation either stops the run or hands over a processed file. */
  datatype Stage = Stopped(run: Run) | Proceed(file: VideoFile, events: seq<Event>)

  function GetEvents(names: seq<string>): (events: seq<Event>)
    ensures |events| == |names|
    ensures forall j :: 0 <= j < |names| ==> events[j] == GetFile(names[j])
  {
    seq(|names|, j requires 0 <= j < |names| => GetFile(names[j]))
  }

  function GenerateEvents(calls: seq<Fallback.Request>): (events: seq<Event>)
    ensures |events| == |calls|
    ensures forall j :: 0 <= j < |calls| ==> events[j] == Generate(calls[j])
  {
    seq(|calls|, j requires 0 <= j < |calls| => Generate(calls[j]))
  }

  predicate IsGenerate(e: Event)
  {
    e.Generate?
  }

  /** Key check, client creation, existence check, upload and polling. A failing
      check or a `FAILED` state exits with 1 (`sys.exit` raises `SystemExit`,
      which the surrounding `except Exception` does not catch); an exception
      from upload or `files.get` is caught and printed, and the script returns
      normally. No stopped run contains a generation call. */
  function Prepare(env: Environment, path: string): (s: Stage)
    ensures s.Stopped? ==> s.run.summary.None?
    ensures s.Stopped? ==> forall j :: 0 <= j < |s.run.events| ==> !IsGenerate(s.run.events[j])
    ensures s.Proceed? ==> s.file.state != Processing && s.file.state != Failed
    ensures s.Proceed? ==> forall j :: 0 <= j < |s.events| ==> !IsGenerate(s.events[j])
    ensures !Present(env.apiKey) ==> s == Stopped(Run([], Exited(1), None))
    ensures Present(env.apiKey) && !env.clientOk ==> s == Stopped(Run([CreateClient], Exited(1), None))
    ensures Present(env.apiKey) && env.clientOk && !env.videoExists ==>
      s == Stopped(Run([CreateClient], Exited(1), None))
    ensures Present(env.apiKey) && env.clientOk && env.videoExists && env.upload.UploadRaised? ==>
      s == Stopped(Run([CreateClient, UploadFile(path)], Exited(0), None))
  {
    if !Present(env.apiKey) then Stopped(Run([], Exited(1), None))
    else if !env.clientOk then Stopped(Run([CreateClient], Exited(1), None))
    else if !env.videoExists then Stopped(Run([CreateClient], Exited(1), None))
    else
      match env.upload
      case UploadRaised(_) => Stopped(Run([CreateClient, UploadFile(path)], Exited(0), None))
      case Uploaded(file) =>
        var poll := AwaitReady(file, env.fetches);
        var events := [CreateClient, UploadFile(path)] + GetEvents(poll.gets);
        match poll.end
        case GetRaised(_) => Stopped(Run(events, Exited(0), None))
        case StillProcessing => Stopped(Run(events, Waiting, None))
        case Ready(f) =>
          if f.state == Failed then Stopped(Run(events, Exited(1), None))
          else Proceed(f, events)
  }

  /** Processing that ends in `FAILED` exits with 1 before any generation call. */
  lemma FailedStateStops(env: Environment, path: string, file: VideoFile)
    requires Present(env.apiKey) && env.clientOk && env.videoExists
    requires env.upload == Uploaded(file)
    requires AwaitReady(file, env.fetches).end.Ready?
    requires AwaitReady(file, env.fetches).end.file.state == Failed
    ensures Prepare(env, path).Stopped? && Prepare(env, path).run.exit == Exited(1)
  {
  }

  /** Any other final state proceeds to generation with the file last fetched. */
  lemma OtherStateProceeds(env: Environment, path: string, file: VideoFile)
    requires Present(env.apiKey) && env.clientOk && env.videoExists
    requires env.upload == Uploaded(file)
    requires AwaitReady(file, env.fetches).end.Ready?
    requires AwaitReady(file, env.fetches).end.file.state != Failed
    ensures Prepare(env, path) == Proceed(AwaitReady(file, env.fetches).end.file,
                                          [CreateClient, UploadFile(path)] + GetEvents(AwaitReady(file, env.fetches).gets))
  {
  }
}

=== FILE: text.dfy ===
/** Python's `str.split` on a one-character separator and `str.join`. */
module Text {

  /** Position of the first occurrence of `c` in `s`. */
  function IndexOf(s: string, c: char): (k: nat)
    requires c in s
    ensures k < |s| && s[k] == c && c !in s[..k]
  {
    if s[0] == c then 0
    else
      var k := 1 + IndexOf(s[1..], c);
      assert s[..k] == [s[0]] + s[1..][..k - 1];
      k
  }

  /** `s.split(sep)`: the maximal separator-free pieces, always at least one. */
  function Split(s: string, sep: char): (parts: seq<string>)
    ensures |parts| >= 1
    ensures forall i :: 0 <= i < |parts| ==> sep !in parts[i]
    ensures sep !in s <==> |parts| == 1
    decreases |s|
  {
    if sep !in s then [s]
    else
      var k := IndexOf(s, sep);
      [s[..k]] + Split(s[k + 1..], sep)
  }

  /** `sep.join(parts)`: the parts in order with `sep` between neighbours. */
  function Join(parts: seq<string>, sep: string): (r: string)
    ensures parts == [] ==> r == ""
    ensures |parts| == 1 ==> r == parts[0]
  {
    if parts == [] then ""
    else if |parts| == 1 then parts[0]
    else parts[0] + sep + Join(parts[1..], sep)
  }

  /** Splitting and joining back with the same separator loses nothing. */
  lemma {:induction false} JoinSplit(s: string, sep: char)
    ensures Join(Split(s, sep), [sep]) == s
    decreases |s|
  {
    if sep in s {
      var k := IndexOf(s, sep);
      var rest := s[k + 1..];
      assert s[k..] == [sep] + rest;
      assert s == s[..k] + [sep] + rest by {
        assert s == s[..k] + s[k..];
      }
      var tail := Split(rest, sep);
      JoinSplit(rest, sep);
      assert Split(s, sep) == [s[..k]] + tail;
      JoinCons(s[..k], tail, [sep]);
    }
  }

  lemma JoinCons(head: string, tail: seq<string>, sep: string)
    requires |tail| > 0
    ensures Join([head] + tail, sep) == head + sep + Join(tail, sep)
  {
    assert ([head] + tail)[1..] == tail;
  }

  /** Joining two separator-free pieces and splitting again recovers them. */
  lemma SplitPair(a: string, b: string, sep: char)
    requires sep !in a && sep !in b
    ensures Split(a + [sep] + b, sep) == [a, b]
  {
    var s := a + [sep] + b;
    assert s[|a|] == sep;
    assert s[..|a|] == a;
    assert s[|a| + 1..] == b;
  }

  /** Appending one more part extends the joined text by a separator and that part. */
  lemma {:induction false} JoinAppend(parts: seq<string>, x: string, sep: string)
    requires |parts| > 0
    ensures Join(parts + [x], sep) == Join(parts, sep) + sep + x
    decreases |parts|
  {
    if |parts| > 1 {
      assert (parts + [x])[1..] == parts[1..] + [x];
      JoinAppend(parts[1..], x, sep);
    } else {
      assert (parts + [x])[1..] == [x];
    }
  }
}

=== FILE: timelapse.dfy ===
/** `convert_video` and `main` of the timelapse converter: one ffmpeg call per
    input video, speeding it up by half its frame rate and re-encoding with
    H.264 at CRF 28, preset `veryslow`, without audio. */
module Timelapse {
  import opened Common
  import opened Numbers
  import Probe
  import Paths
  import Ffmpeg
  import Decimal

  const Codec := "libx264"
  const Crf := "28"
  const Preset := "veryslow"

  /** The patterns searched in the input directory, in this order. */
  const Patterns := ["*.mp4", "*.mov", "*.avi", "*.mkv"]

  /** The argument vector handed to ffmpeg. */
  function Command(input: string, output: string, fps: PyNum, renderFloat: Rat -> string): (cmd: seq<string>)
    requires WellFormed(fps)
    ensures |cmd| == 14 && cmd[0] == "ffmpeg" && cmd[13] == output
    ensures cmd[3] == input && cmd[5] == Ffmpeg.SpeedFilter(fps, renderFloat)
  {
    ["ffmpeg", "-y", "-i", input,
     "-filter:v", Ffmpeg.SpeedFilter(fps, renderFloat),
     "-c:v", Codec, "-crf", Crf, "-preset", Preset, "-an",
     output]
  }

  /** The settings ffmpeg reads from that command. */
  function Expected(input: string, fps: PyNum, renderFloat: Rat -> string): (settings: Ffmpeg.Settings)
    requires WellFormed(fps)
  {
    Ffmpeg.Settings(true, Some(input), Some(Ffmpeg.SpeedFilter(fps, renderFloat)),
                    Some(Codec), Some(Crf), Some(Preset), false, None)
  }

  /** Read back, the command overwrites, takes the input, applies the speed-up
      filter, encodes H.264 at CRF 28 with preset `veryslow`, drops audio and
      writes the output last, with nothing after it. */
  lemma CommandReadsBack(input: string, output: string, fps: PyNum, renderFloat: Rat -> string)
    requires WellFormed(fps)
    requires !Ffmpeg.IsOption(output)
    ensures Ffmpeg.Read(Command(input, output, fps, renderFloat))
         == Some(Ffmpeg.Invocation(Expected(input, fps, renderFloat), output, []))
  {
    Ffmpeg.ReadConverterCommand(input, Ffmpeg.SpeedFilter(fps, renderFloat), Codec, Crf, Preset, output, []);
    assert Command(input, output, fps, renderFloat) == Command(input, output, fps, renderFloat) + [];
  }

  /** How starting ffmpeg ends: it exits, successfully or not, or it cannot be
      started at all (no executable), in which case `subprocess.run` raises an
      `OSError` that `convert_video` does not catch. */
  datatype Launch = Exits(ok: bool) | CannotStart

  /** What one `convert_video` call did: nothing (no usable probe), one ffmpeg
      run with its argument vector and whether it exited successfully, or an
      ffmpeg that could not be started, whose exception ends the script. */
  datatype Conversion = Skipped | Ran(cmd: seq<string>, succeeded: bool) | Raised(cmd: seq<string>)
  {
    /** `convert_video`'s boolean result, when it returns one. */
    predicate Converted()
    {
      Ran? && succeeded
    }
  }

  /** `convert_video(input, output)`, given the decoded probe of `input` and
      how starting ffmpeg ends. */
  function ConvertVideo(input: string, output: string, probe: Option<Probe.ProbeData>,
                        launch: Launch, renderFloat: Rat -> string): (r: Conversion)
    ensures r.Skipped? <==> Probe.TimelapseVideoInfo(probe).None?
    ensures !r.Skipped? ==> r.cmd == Command(input, output, Probe.TimelapseVideoInfo(probe).value.fps, renderFloat)
    ensures !r.Skipped? ==> |r.cmd| == 14 && r.cmd[3] == input && r.cmd[13] == output
    ensures r.Raised? <==> !r.Skipped? && launch.CannotStart?
    ensures r.Converted() <==> !r.Skipped? && launch == Exits(true)
  {
    match Probe.TimelapseVideoInfo(probe)
    case None => Skipped
    case Some(info) =>
      var cmd := Command(input, output, info.fps, renderFloat);
      match launch
      case Exits(ok) => Ran(cmd, ok)
      case CannotStart => Raised(cmd)
  }

  /** A frame rate of 0 (the stream gave none) does not stop the conversion:
      ffmpeg is still run, dividing the timestamps by the float `0 / 2` and
      keeping the integer frame rate `0`. */
  lemma ZeroFrameRateStillRuns(input: string, output: string, probe: Option<Probe.ProbeData>,
                               launch: Launch, renderFloat: Rat -> string)
    requires Probe.TimelapseVideoInfo(probe).Some?
    requires Probe.TimelapseVideoInfo(probe).value.fps == PyInt(0)
    ensures !ConvertVideo(input, output, probe, launch, renderFloat).Skipped?
    ensures ConvertVideo(input, output, probe, launch, renderFloat).cmd[5]
         == "setpts=PTS/" + renderFloat(Rat(0, 2)) + ",fps=0"
  {
    assert Decimal.IntToString(0) == "0";
  }

  /** `input_files.extend(glob.glob(q))` for each query in turn. */
  function GlobAll(queries: seq<string>, glob: string -> seq<string>): (found: seq<string>)
  {
    if queries == [] then [] else glob(queries[0]) + GlobAll(queries[1..], glob)
  }

  lemma GlobFour(queries: seq<string>, glob: string -> seq<string>)
    requires |queries| == 4
    ensures GlobAll(queries, glob) == glob(queries[0]) + glob(queries[1]) + glob(queries[2]) + glob(queries[3])
  {
    var a, b, c, d := glob(queries[0]), glob(queries[1]), glob(queries[2]), glob(queries[3]);
    assert GlobAll(queries[3..], glob) == d + GlobAll(queries[4..], glob) == d;
    assert GlobAll(queries[2..], glob) == c + d;
    assert GlobAll(queries[1..], glob) == b + (c + d);
    assert a + (b + (c + d)) == a + b + c + d;
  }

  /** The files `main` finds: the matches of `*.mp4`, then of `*.mov`, `*.avi`
      and `*.mkv`, each pattern searched in the input directory. */
  function CollectInputs(inputDir: string, glob: string -> seq<string>): (inputs: seq<string>)
    ensures inputs == glob(Paths.PathJoin(inputDir, "*.mp4")) + glob(Paths.PathJoin(inputDir, "*.mov"))
                    + glob(Paths.PathJoin(inputDir, "*.avi")) + glob(Paths.PathJoin(inputDir, "*.mkv"))
  {
    var queries := [Paths.PathJoin(inputDir, Patterns[0]), Paths.PathJoin(inputDir, Patterns[1]),
                    Paths.PathJoin(inputDir, Patterns[2]), Paths.PathJoin(inputDir, Patterns[3])];
    GlobFour(queries, glob);
    GlobAll(queries, glob)
  }

  /** One input file and what happened to it. */
  datatype Job = Job(input: string, output: string, result: Conversion)

  /** `os.path.join(output_dir, os.path.basename(input))`: a path in the output
      directory with the input's base name. */
  function OutputFor(input: string, outputDir: string): (output: string)
    ensures outputDir <= output
  {
    Paths.PathJoin(outputDir, Paths.Basename(input))
  }

  /** Every output file lies directly in the output directory and keeps its
      input's base name. */
  lemma OutputKeepsBaseName(input: string, outputDir: string)
    ensures Paths.Basename(OutputFor(input, outputDir)) == Paths.Basename(input)
    ensures Paths.DirectlyIn(OutputFor(input, outputDir), outputDir)
  {
    Paths.BasenameOfJoin(outputDir, Paths.Basename(input));
    Paths.JoinIsDirectlyIn(outputDir, Paths.Basename(input));
  }

  /** One iteration of `main`'s loop: `convert_video(input, join(output_dir, basename(input)))`. */
  function ConvertOne(input: string, outputDir: string, probe: string -> Option<Probe.ProbeData>,
                      ffmpeg: string -> Launch, renderFloat: Rat -> string): (job: Job)
  {
    var output := OutputFor(input, outputDir);
    Job(input, output, ConvertVideo(input, output, probe(input), ffmpeg(input), renderFloat))
  }

  /** Each job converts its input into the output directory under the input's
      own base name: ffmpeg reads the input and writes that output; the job is
      skipped exactly when the probe gives nothing, and raises exactly when
      ffmpeg cannot be started. */
  lemma ConvertOneShape(input: string, outputDir: string, probe: string -> Option<Probe.ProbeData>,
                        ffmpeg: string -> Launch, renderFloat: Rat -> string)
    ensures var job := ConvertOne(input, outputDir, probe, ffmpeg, renderFloat);
      && job.input == input
      && outputDir <= job.output
      && Paths.DirectlyIn(job.output, outputDir)
      && Paths.Basename(job.output) == Paths.Basename(input)
      && (job.result.Skipped? <==> Probe.TimelapseVideoInfo(probe(input)).None?)
      && (!job.result.Skipped? ==> |job.result.cmd| == 14 && job.result.cmd[3] == input && job.result.cmd[13] == job.output)
      && (job.result.Raised? <==> !job.result.Skipped? && ffmpeg(input).CannotStart?)
      && (job.result.Converted() <==> !job.result.Skipped? && ffmpeg(input) == Exits(true))
  {
    OutputKeepsBaseName(input, outputDir);
  }

  /** A job whose ffmpeg could not be started ends the script. */
  predicate Raises(job: Job)
  {
    job.result.Raised?
  }

  /** The conversions of all inputs, as if none could end the script. */
  function Planned(inputs: seq<string>, outputDir: string, probe: string -> Option<Probe.ProbeData>,
                   ffmpeg: string -> Launch, renderFloat: Rat -> string): (planned: seq<Job>)
    ensures |planned| == |inputs|
    ensures forall i :: 0 <= i < |inputs| ==> planned[i] == ConvertOne(inputs[i], outputDir, probe, ffmpeg, renderFloat)
  {
    seq(|inputs|, i requires 0 <= i < |inputs| => ConvertOne(inputs[i], outputDir, probe, ffmpeg, renderFloat))
  }

  /** Each planned job converts its own input, directly into the output
      directory under the input's base name; it is skipped exactly when the
      probe of that input gives nothing, and raises exactly when ffmpeg cannot
      be started for it. */
  lemma PlannedJobs(inputs: seq<string>, outputDir: string, probe: string -> Option<Probe.ProbeData>,
                    ffmpeg: string -> Launch, renderFloat: Rat -> string)
    ensures var planned := Planned(inputs, outputDir, probe, ffmpeg, renderFloat);
      forall i :: 0 <= i < |inputs| ==>
        && planned[i].input == inputs[i]
        && Paths.DirectlyIn(planned[i].output, outputDir)
        && Paths.Basename(planned[i].output) == Paths.Basename(inputs[i])
        && (planned[i].result.Skipped? <==> Probe.TimelapseVideoInfo(probe(inputs[i])).None?)
        && (planned[i].result.Raised? <==> !planned[i].result.Skipped? && ffmpeg(inputs[i]).CannotStart?)
  {
    var planned := Planned(inputs, outputDir, probe, ffmpeg, renderFloat);
    forall i | 0 <= i < |inputs|
      ensures && planned[i].input == inputs[i]
              && Paths.DirectlyIn(planned[i].output, outputDir)
              && Paths.Basename(planned[i].output) == Paths.Basename(inputs[i])
              && (planned[i].result.Skipped? <==> Probe.TimelapseVideoInfo(probe(inputs[i])).None?)
              && (planned[i].result.Raised? <==> !planned[i].result.Skipped? && ffmpeg(inputs[i]).CannotStart?)
    {
      ConvertOneShape(inputs[i], outputDir, probe, ffmpeg, renderFloat);
    }
  }

  /** The loop of `main`: the planned conversions in the order found, cut
      short after the first ffmpeg that cannot be started. */
  function ConvertAll(inputs: seq<string>, outputDir: string, probe: string -> Option<Probe.ProbeData>,
                      ffmpeg: string -> Launch, renderFloat: Rat -> string): (jobs: seq<Job>)
    ensures jobs <= Planned(inputs, outputDir, probe, ffmpeg, renderFloat)
    ensures forall i :: 0 <= i < |jobs| - 1 ==> !jobs[i].result.Raised?
    ensures |jobs| < |inputs| ==> |jobs| > 0 && jobs[|jobs| - 1].result.Raised?
  {
    UntilFirst(Planned(inputs, outputDir, probe, ffmpeg, renderFloat), Raises)
  }

  /** When ffmpeg can always be started, every input is converted. */
  lemma AllInputsWhenFfmpegStarts(inputs: seq<string>, outputDir: string, probe: string -> Option<Probe.ProbeData>,
                                  ffmpeg: string -> Launch, renderFloat: Rat -> string)
    requires forall i :: 0 <= i < |inputs| ==> ffmpeg(inputs[i]).Exits?
    ensures ConvertAll(inputs, outputDir, probe, ffmpeg, renderFloat) == Planned(inputs, outputDir, probe, ffmpeg, renderFloat)
  {
    var jobs := ConvertAll(inputs, outputDir, probe, ffmpeg, renderFloat);
    if |jobs| < |inputs| {
      ConvertOneShape(inputs[|jobs| - 1], outputDir, probe, ffmpeg, renderFloat);
    }
  }

  /** `main` below the script's own directory `baseDir`: the conversions it
      attempts into `output`, in the order the inputs are found under `input`,
      none when no input file is found, and ending early only at an ffmpeg that
      cannot be started. */
  function Main(baseDir: string, glob: string -> seq<string>, probe: string -> Option<Probe.ProbeData>,
                ffmpeg: string -> Launch, renderFloat: Rat -> string): (jobs: seq<Job>)
    ensures jobs <= Planned(CollectInputs(Paths.PathJoin(baseDir, "input"), glob), Paths.PathJoin(baseDir, "output"),
                            probe, ffmpeg, renderFloat)
    ensures forall i :: 0 <= i < |jobs| - 1 ==> !jobs[i].result.Raised?
    ensures |jobs| < |CollectInputs(Paths.PathJoin(baseDir, "input"), glob)| ==> |jobs| > 0 && jobs[|jobs| - 1].result.Raised?
  {
    var inputs := CollectInputs(Paths.PathJoin(baseDir, "input"), glob);
    var outputDir := Paths.PathJoin(baseDir, "output");
    if inputs == [] then []
    else ConvertAll(inputs, outputDir, probe, ffmpeg, renderFloat)
  }
}

=== FILE: video_summary.dfy ===
/** `main` of the generic Gemini summary script: models come from `config.yml`
    (primary model, then the configured fallbacks) and are tried in that order;
    when all of them fail the script exits with 1. */
module VideoSummary {
  import opened Common
  import opened Polling
  import opened Session
  import Fallback

  const DefaultPrimary := "gemini-3.0-pro"
  const DefaultFallbacks := ["gemini-2.5-pro", "gemini-1.5-pro"]

  /** The keys of the loaded configuration that matter here; each may be absent. */
  datatype Config = Config(modelName: Option<string>, fallbackModels: Option<seq<string>>)

  /** `load_config()`: the file's contents, or the built-in defaults when there is no file. */
  function LoadConfig(file: Option<Config>): (c: Config)
    ensures file.None? ==> c.modelName == Some(DefaultPrimary) && c.fallbackModels == Some(DefaultFallbacks)
    ensures file.Some? ==> c == file.value
  {
    if file.None? then Config(Some(DefaultPrimary), Some(DefaultFallbacks)) else file.value
  }

  /** `[config.get("model_name", "gemini-3.0-pro")] + config.get("fallback_models", [])`:
      the primary model first, then every fallback in configured order. */
  function ModelsToTry(config: Config): (models: seq<string>)
    ensures |models| == 1 + (if config.fallbackModels.Some? then |config.fallbackModels.value| else 0)
    ensures models[0] == (if config.modelName.Some? then config.modelName.value else DefaultPrimary)
    ensures config.fallbackModels.Some? ==> models[1..] == config.fallbackModels.value
    ensures config.fallbackModels.None? ==> models[1..] == []
  {
    var primary := if config.modelName.Some? then config.modelName.value else DefaultPrimary;
    var fallbacks := if config.fallbackModels.Some? then config.fallbackModels.value else [];
    [primary] + fallbacks
  }

  /** Without a configuration file three models are tried, newest first. */
  lemma DefaultModels()
    ensures ModelsToTry(LoadConfig(None)) == ["gemini-3.0-pro", "gemini-2.5-pro", "gemini-1.5-pro"]
  {
  }

  /** A run's generation calls all carry the summary prompt and a processed file. */
  predicate GeneratesOnProcessedFile(run: Run)
  {
    forall j :: 0 <= j < |run.events| && IsGenerate(run.events[j]) ==>
      run.events[j].request.prompt == Fallback.SummaryPrompt
      && run.events[j].request.video.state != Processing
      && run.events[j].request.video.state != Failed
  }

  /** The generation step of `main`: exit 1 when every model failed. */
  function GenerateStep(events: seq<Event>, file: VideoFile, models: seq<string>, respond: nat -> Reply): (run: Run)
    requires forall j :: 0 <= j < |events| ==> !IsGenerate(events[j])
    requires file.state != Processing && file.state != Failed
    ensures GeneratesOnProcessedFile(run)
    ensures run.summary.Some? <==> run.exit == Exited(0)
    ensures |events| <= |run.events| <= |events| + |models|
    ensures run.events[..|events|] == events
    ensures forall j :: |events| <= j < |run.events| ==>
      run.events[j] == Generate(Fallback.Request(models[j - |events|], file, Fallback.SummaryPrompt))
    ensures run.summary.Some? <==> exists j :: 0 <= j < |models| && respond(j).Ok?
    ensures run.summary.Some? ==>
      |run.events| > |events| && respond(|run.events| - |events| - 1) == Ok(run.summary.value)
    ensures run.summary.None? ==> |run.events| == |events| + |models|
  {
    var outcome := Fallback.GenerateWithFallback(models, file, respond);
    var generated := GenerateEvents(outcome.calls);
    var run := Run(events + generated, if outcome.Succeeded() then Exited(0) else Exited(1), outcome.summary);
    assert forall j :: |events| <= j < |run.events| ==> run.events[j] == generated[j - |events|];
    assert run.events[..|events|] == events;
    run
  }

  /** `main`, given the configuration file (if any), the video path and the environment. */
  function Main(env: Environment, path: string, configFile: Option<Config>): (run: Run)
    ensures GeneratesOnProcessedFile(run)
    ensures run.summary.Some? ==> run.exit == Exited(0)
    ensures Prepare(env, path).Stopped? ==> run == Prepare(env, path).run
    ensures Prepare(env, path).Proceed? ==>
      var prep := Prepare(env, path);
      var models := ModelsToTry(LoadConfig(configFile));
      && |prep.events| <= |run.events| <= |prep.events| + |models|
      && run.events[..|prep.events|] == prep.events
      && (forall j :: |prep.events| <= j < |run.events| ==>
            run.events[j] == Generate(Fallback.Request(models[j - |prep.events|], prep.file, Fallback.SummaryPrompt)))
      && (run.summary.Some? <==> exists j :: 0 <= j < |models| && env.respond(j).Ok?)
  {
    var prep := Prepare(env, path);
    if prep.Stopped? then prep.run
    else GenerateStep(prep.events, prep.file, ModelsToTry(LoadConfig(configFile)), env.respond)
  }

  /** When the file is ready and every model fails, each model is asked once and
      the script exits with 1 without a summary. */
  lemma ExhaustionExitsOne(env: Environment, path: string, configFile: Option<Config>)
    requires Prepare(env, path).Proceed?
    requires forall j :: 0 <= j < |ModelsToTry(LoadConfig(configFile))| ==> env.respond(j).Err?
    ensures Main(env, path, configFile).exit == Exited(1)
    ensures Main(env, path, configFile).summary.None?
    ensures |Main(env, path, configFile).events| == |Prepare(env, path).events| + |ModelsToTry(LoadConfig(configFile))|
  {
  }

  /** When the file is ready and some model answers, the script exits normally
      with the first answer as its summary. */
  lemma FirstAnswerWins(env: Environment, path: string, configFile: Option<Config>, k: nat)
    requires Prepare(env, path).Proceed?
    requires k < |ModelsToTry(LoadConfig(configFile))| && env.respond(k).Ok?
    requires forall j :: 0 <= j < k ==> env.respond(j).Err?
    ensures Main(env, path, configFile).exit == Exited(0)
    ensures Main(env, path, configFile).summary == Some(env.respond(k).text)
    ensures |Main(env, path, configFile).events| == |Prepare(env, path).events| + k + 1
  {
    Fallback.ShortCircuit(ModelsToTry(LoadConfig(configFile)), Prepare(env, path).file, env.respond, k);
  }
}

=== FILE: vlm_test.dfy ===
/** `main` of the earlier Gemini test script: the same preparation, then a
    hand-unrolled chain over three fixed models; when all three fail it only
    prints the error and returns normally. */
module VlmTest {
  import opened Common
  import opened Polling
  import opened Session
  import Fallback
  import VideoSummary

  /** The models the unrolled chain names, in the order it tries them. */
  const Chain := ["gemini-3.0-pro", "gemini-2.5-pro", "gemini-1.5-pro"]

  /** The nested `try`/`except` chain: 3.0 Pro, on error 2.5 Pro, on error 1.5 Pro. */
  function UnrolledChain(video: VideoFile, respond: nat -> Reply): (r: Fallback.Outcome)
    ensures 1 <= |r.calls| <= 3
    ensures forall j :: 0 <= j < |r.calls| ==> r.calls[j].video == video && r.calls[j].prompt == Fallback.SummaryPrompt
  {
    var first := Fallback.Request("gemini-3.0-pro", video, Fallback.SummaryPrompt);
    var second := Fallback.Request("gemini-2.5-pro", video, Fallback.SummaryPrompt);
    var third := Fallback.Request("gemini-1.5-pro", video, Fallback.SummaryPrompt);
    match respond(0)
    case Ok(text) => Fallback.Outcome([first], Some(text))
    case Err(_) =>
      match respond(1)
      case Ok(text) => Fallback.Outcome([first, second], Some(text))
      case Err(_) =>
        match respond(2)
        case Ok(text) => Fallback.Outcome([first, second, third], Some(text))
        case Err(_) => Fallback.Outcome([first, second, third], None)
  }

  /** The unrolled chain is the generic invoker over the default model list. */
  lemma UnrolledIsGeneric(video: VideoFile, respond: nat -> Reply)
    ensures UnrolledChain(video, respond) == Fallback.GenerateWithFallback(Chain, video, respond)
  {
    var r := Fallback.GenerateWithFallback(Chain, video, respond);
    var u := UnrolledChain(video, respond);
    if respond(0).Ok? {
      Fallback.ShortCircuit(Chain, video, respond, 0);
    } else if respond(1).Ok? {
      Fallback.ShortCircuit(Chain, video, respond, 1);
    } else if respond(2).Ok? {
      Fallback.ShortCircuit(Chain, video, respond, 2);
    } else {
      Fallback.Exhaustion(Chain, video, respond);
    }
    assert |u.calls| == |r.calls|;
    assert forall j :: 0 <= j < |u.calls| ==> u.calls[j] == r.calls[j];
  }

  /** `main` of the test script, given the environment and the fixed video path. */
  function Main(env: Environment, path: string): (run: Run)
    ensures run.exit != Exited(0) ==> Prepare(env, path).Stopped?
  {
    match Prepare(env, path)
    case Stopped(run) => run
    case Proceed(file, events) =>
      var outcome := UnrolledChain(file, env.respond);
      Run(events + GenerateEvents(outcome.calls), Exited(0), outcome.summary)
  }

  /** The two scripts behave alike without a configuration file: the same calls
      and the same summary. Their exits differ exactly when the file is ready and
      all three models fail: the generic script exits with 1, this one with 0. */
  lemma SameAsGenericExceptExit(env: Environment, path: string)
    ensures Main(env, path).events == VideoSummary.Main(env, path, None).events
    ensures Main(env, path).summary == VideoSummary.Main(env, path, None).summary
    ensures Main(env, path).exit != VideoSummary.Main(env, path, None).exit <==>
      Prepare(env, path).Proceed? && forall j :: 0 <= j < 3 ==> env.respond(j).Err?
    ensures Main(env, path).exit != VideoSummary.Main(env, path, None).exit ==>
      Main(env, path).exit == Exited(0) && VideoSummary.Main(env, path, None).exit == Exited(1)
  {
    VideoSummary.DefaultModels();
    match Prepare(env, path)
    case Stopped(_) =>
    case Proceed(file, _) =>
      UnrolledIsGeneric(file, env.respond);
  }
}
